=== FILE: README.md ===
# jetlockfx rate locks and conversion, in Dafny

jetlockfx is a React front end for locking foreign-exchange rates. Its core is
the rate provider (`FxRateContext`) and the pages and widgets built on it.
This project models that core as pure Dafny functions and proves properties of
them.

The provider's pieces:
- it derives a matrix of ordered-pair rates from one USD-based rate table;
- it falls back to a demo table when the rate source fails;
- it converts amounts by lookup;
- it creates rate locks (`toAmount = fromAmount * rate`, 24 hours of validity);
- it marks locks as used.

The pages each re-derive a lock's display status from the clock, and they do
not all agree. The model keeps those differences and states them as lemmas:
- `RateLockPage` splits the locks into active, expired and used groups.
- `RateLockDetails` lets "expired" take precedence over "used" and guards the
  "Mark as Used" action.
- `TransactionsPage` rewrites time-expired locks to the stored status
  "expired" before filtering. As a result, its own "expired" filter selects
  nothing and its badge shows "Active" for those rows.
- `DashboardPage` counts and buckets the locks.

Smaller state machines complete the core:
- the `CurrencyConverter` widget;
- the `PilotTab` converter, with its `|| 0` / `|| 1` defaults and a
  `parseFloat` model;
- the preferred-currency toggle of `ProfilePage`;
- the `Faq` accordion;
- the ordered checks of `RegisterPage`.

Modelling conventions:
- Time is an integer number of milliseconds, and every clock read becomes a
  `now` parameter.
- Amounts and rates are `real`.
- Each store write, callback or network call becomes an explicit outcome
  parameter: `Outcome`, `Completion` or a payload datatype.
- JavaScript truthiness is written out wherever the code relies on it: the
  empty string, `0`, and `x || default`.

Modules, one per source file of the core, plus two shared ones:
- `Wrappers`: Option, Outcome, Completion (shared).
- `Seqs`: filter, occurrence count, subsequence (shared).
- `FxRates`: `src/contexts/FxRateContext.tsx`, rates and conversion.
- `RateLocks`: `src/contexts/FxRateContext.tsx`, the lock record, create and mark.
- `RateLockPage`: `src/pages/RateLockPage.tsx`.
- `RateLockDetails`: `src/components/exchange/RateLockDetails.tsx`.
- `Transactions`: `src/pages/TransactionsPage.tsx`.
- `Dashboard`: `src/pages/DashboardPage.tsx`.
- `Converter`: `src/components/exchange/CurrencyConverter.tsx`.
- `PilotTab`: `src/pages/PilotTab.tsx`.
- `Profile`: `src/pages/ProfilePage.tsx`.
- `Faq`: `src/components/layout/Faq.tsx`.
- `Register`: `src/pages/RegisterPage.tsx`.

## Model

| member | source | states |
|---|---|---|
| FxRates.CatalogFacts | src/contexts/FxRateContext.tsx:55-66 | The supported currency list has ten pairwise-distinct codes and includes USD. |
| FxRates.Catalog | src/contexts/FxRateContext.tsx:55-66 | The codes of the supported currency list, in display order. |
| FxRates.DerivedRate | src/contexts/FxRateContext.tsx:127-133 | The rate X -> Y implied by a USD-based table: base[Y] from USD, 1 / base[X] to USD, and base[Y] / base[X] otherwise. |
| FxRates.BaseRow | src/contexts/FxRateContext.tsx:106-118 | The first pass emits only USD -> X entries for listed non-USD codes X with a nonzero base rate, each carrying exactly that base rate; every such X gets one. |
| FxRates.CrossRow | src/contexts/FxRateContext.tsx:121-141 | For one source currency the inner loop emits no self-pair and nothing from USD, and each entry carries the rate implied by the USD base (1/base[X] to USD, base[Y]/base[X] otherwise). |
| FxRates.CrossRows | src/contexts/FxRateContext.tsx:121-142 | The second pass emits only non-self pairs whose source is not USD, each with the base-implied rate. |
| FxRates.BuildMatrix | src/contexts/FxRateContext.tsx:102-142 | The stored list has no self-pair, only listed currencies, and every entry's rate is the one implied by the USD base table. |
| FxRates.BaseRowPairCount | src/contexts/FxRateContext.tsx:106-118 | The first pass holds USD -> X once per occurrence of X in the list when X is not USD and has a nonzero base rate, and no entry for any other pair. |
| FxRates.CrossRowPairCount | src/contexts/FxRateContext.tsx:122-141 | The inner loop holds X -> Y once per occurrence of Y when X is not USD and Y differs from X, and nothing else. |
| FxRates.CrossRowsPairCount | src/contexts/FxRateContext.tsx:121-142 | The second pass holds X -> Y (occurrences of X) times (occurrences of Y) times when X is not USD and Y differs from X, and never otherwise. |
| FxRates.MatrixPairCount | src/contexts/FxRateContext.tsx:106-142 | With pairwise-distinct codes including USD, the matrix holds exactly one entry for each ordered pair of distinct listed codes and none for any other pair. |
| FxRates.BaseRowLength | src/contexts/FxRateContext.tsx:106-118 | The first pass has one entry per non-USD code. |
| FxRates.CrossRowLength | src/contexts/FxRateContext.tsx:122-141 | For a non-USD source the inner loop has one entry per target other than the source, and none for USD as the source. |
| FxRates.CrossRowsLength | src/contexts/FxRateContext.tsx:121-142 | The second pass has n - 1 entries for each non-USD source. |
| FxRates.MatrixLength | src/contexts/FxRateContext.tsx:102-142 | n distinct codes including USD yield n * (n - 1) entries. |
| FxRates.CatalogMatrix | src/contexts/FxRateContext.tsx:102-142 | For the ten-currency list with every base rate present, the matrix has 90 entries, one for each ordered pair of distinct catalog codes. |
| FxRates.DerivedRateReciprocal | src/contexts/FxRateContext.tsx:127-133 | Over the reals the implied rates of X -> Y and Y -> X multiply to 1. |
| FxRates.MatrixFromBase | src/contexts/FxRateContext.tsx:106-142 | Every matrix entry is a non-self pair carrying the rate implied by its base table. |
| FxRates.FromBaseReciprocal | src/contexts/FxRateContext.tsx:110-133 | In any list derived from one base table, the rates of an entry and of its reverse entry multiply to 1. |
| FxRates.DerivedPairReciprocal | src/contexts/FxRateContext.tsx:127-133 | The two rates implied for opposite directions of a pair are reciprocals. |
| FxRates.FallbackRates | src/contexts/FxRateContext.tsx:153-161 | The seven demo entries (USD->EUR 0.92, USD->GBP 0.79, USD->JPY 151.69, EUR->USD 1.09, EUR->GBP 0.86, GBP->USD 1.27, JPY->USD 0.0066), all stamped with the fetch time. |
| FxRates.FallbackRatesFacts | src/contexts/FxRateContext.tsx:153-161 | The demo table has seven entries, no two for the same ordered pair and none a self-pair. |
| FxRates.FetchRates | src/contexts/FxRateContext.tsx:92-166 | Loading ends either way. The error is cleared exactly when the payload has `rates`. Success replaces the list wholesale with the matrix built from the `rates` table. That matrix has 90 entries, one per ordered catalog pair, and each carries the rate implied by the table. An unreachable source or a payload without `rates` replaces the list with exactly the seven-entry demo table and sets the error message. |
| FxRates.FindRate | src/contexts/FxRateContext.tsx:278-280 | The lookup finds nothing exactly when no entry has the pair; otherwise it returns the rate of the first matching entry. |
| FxRates.ConvertAmount | src/contexts/FxRateContext.tsx:275-283 | Equal codes return the amount unchanged. Otherwise the result is null exactly when no entry has the pair. Else it is the amount times the rate of the first matching entry, the one `FindRate` returns. |
| FxRates.MatrixHasPair | src/contexts/FxRateContext.tsx:106-142 | Every ordered pair of distinct listed codes has an entry in the matrix. |
| FxRates.FindUniformRate | src/contexts/FxRateContext.tsx:278-282 | When some entry matches and every matching entry carries the same rate, the lookup returns that rate. |
| FxRates.MatrixPairRate | src/contexts/FxRateContext.tsx:127-133 | Every matrix entry for X -> Y carries the base-implied rate for that pair. |
| FxRates.MatrixLookup | src/contexts/FxRateContext.tsx:275-283 | On the matrix, the lookup for two distinct listed codes finds the base-implied rate, so conversion between them always succeeds. |
| FxRates.ConvertFound | src/contexts/FxRateContext.tsx:282 | A found rate turns an amount into the amount times that rate. |
| FxRates.FallbackGbpToEurUnavailable | src/contexts/FxRateContext.tsx:275-283 | Under the demo table, converting GBP to EUR yields null. |
| RateLocks.CreateRateLock | src/contexts/FxRateContext.tsx:169-220 | Without a signed-in user it rejects with the authentication message. When the store write fails it rejects with the creation message and leaves the list unchanged. On success it returns a lock with the store id, the user's uid, toAmount = fromAmount * rate, expiry 24 hours after creation and status active, appended to the list. |
| RateLocks.CreateAppendsOne | src/contexts/FxRateContext.tsx:207-219 | A successful create grows the list by exactly one record, at the end, and keeps every earlier record in place; a failed one changes nothing. |
| RateLocks.MarkUsedLocally | src/contexts/FxRateContext.tsx:265-267 | The length is kept. Records with the id become used. No other field of any record changes, and records with another id are untouched. |
| RateLocks.MarkRateLockAsUsed | src/contexts/FxRateContext.tsx:257-272 | Completes exactly when the store update does. A failed update rejects with the update message and leaves the list as it was. On success the list is the local mark: it keeps its length, the records with the id become used, and every other field and every other record is unchanged. |
| RateLocks.MarkUsedIdempotent | src/contexts/FxRateContext.tsx:265-267 | Marking an id twice equals marking it once. |
| RateLocks.MarkUsedCommutes | src/contexts/FxRateContext.tsx:265-267 | Marking two ids gives the same list in either order. |
| RateLocks.MarkUsedUnknownId | src/contexts/FxRateContext.tsx:265-267 | An id no record carries leaves the list unchanged. |
| RateLocks.MarkUsedIgnoresStatus | src/contexts/FxRateContext.tsx:257-267 | There is no status check: a record with the id becomes used whatever its stored status. |
| RateLocks.CreateThenMark | src/contexts/FxRateContext.tsx:207-267 | Marking the store id of a lock just created makes the appended record used. The list becomes the local mark of the earlier records followed by the used new record, so an earlier record with the same id is marked too. |
| RateLocks.CreateThenMarkFreshId | src/contexts/FxRateContext.tsx:207-267 | When no earlier record carries the store id, marking after the create changes exactly the appended record, which becomes used. |
| RateLocks.MarkUsedAppend | src/contexts/FxRateContext.tsx:265-267 | The local mark works record by record: marking a concatenation is the concatenation of the marks. |
| RateLockPage.ViewButtonShown | src/pages/RateLockPage.tsx:164-177 | The View Lock tab button is shown exactly when a lock is selected. |
| RateLockPage.ShowsDetails | src/pages/RateLockPage.tsx:464 | The lock details panel is shown exactly when the view tab is active and a lock is selected. |
| RateLockPage.ActiveRates | src/pages/RateLockPage.tsx:29-31 | The records stored as active whose expiry is still in the future, in list order. |
| RateLockPage.ExpiredRates | src/pages/RateLockPage.tsx:32-34 | The records stored as active whose expiry is at or before now, in list order. |
| RateLockPage.UsedRates | src/pages/RateLockPage.tsx:35-37 | The records stored as used, in list order. |
| RateLockPage.GroupsPartition | src/pages/RateLockPage.tsx:28-37 | The active, expired and used groups, together with the records stored as "expired", are a partition of the list as multisets. |
| RateLockPage.GroupsDisjoint | src/pages/RateLockPage.tsx:28-37 | The groups are pairwise disjoint. A record stored as "expired" is in none of them. Each group is an order-preserving subsequence of the list. |
| RateLockPage.ExactlyOneGroup | src/pages/RateLockPage.tsx:28-37 | A record stored as active or used lies in exactly one group. |
| RateLockPage.ExpiryIsPermanent | src/pages/RateLockPage.tsx:29-34 | A record in the expired group at time t is in it, and not in the active group, at every later time. |
| RateLockPage.CreatedLockLifecycle | src/pages/RateLockPage.tsx:28-34 | A freshly created lock is active strictly before 24 hours after creation and expired from then on. |
| RateLockPage.JsRem | src/pages/RateLockPage.tsx:279 | The truncating remainder lies in [0, b) for a nonnegative dividend and in (-b, 0] for a negative one. |
| RateLockPage.JsRemOdd | src/pages/RateLockPage.tsx:279 | The truncating remainder changes sign with its dividend, unlike Dafny's Euclidean one. |
| RateLockPage.CountdownOf | src/pages/RateLockPage.tsx:276-279 | For positive time left, hours are nonnegative, minutes lie in 0..59, and hours * 60 + minutes is the number of whole minutes left. |
| RateLockPage.ActiveCountdown | src/pages/RateLockPage.tsx:273-279 | Every lock in the active group shows a countdown with nonnegative hours and minutes in 0..59. A lock expiring at most 24 hours ahead shows at most 24h 0m. |
| RateLockPage.InitialPage | src/pages/RateLockPage.tsx:20-21 | The first tab is "view" exactly when the id query parameter is present and non-empty, otherwise "create"; nothing is selected. |
| RateLockPage.FindLock | src/pages/RateLockPage.tsx:47 | Nothing is found exactly when no record has the id; otherwise the first record with the id is returned. |
| RateLockPage.SelectFromQuery | src/pages/RateLockPage.tsx:45-53 | With a truthy id naming a loaded record, that record is selected on the view tab. A falsy or unknown id changes nothing. |
| RateLockPage.HandleLockRate | src/pages/RateLockPage.tsx:56-91 | A successful create selects the new lock on the view tab with the success notice. A failure keeps tab and selection and shows the failure notice. |
| RateLockPage.HandleSelectRate | src/pages/RateLockPage.tsx:94-97 | Selecting a lock shows it on the view tab and keeps the notification. |
| RateLockPage.ClickCreate | src/pages/RateLockPage.tsx:136-139 | "Create Lock" switches to the create tab and clears the selection. |
| RateLockPage.ClickHistory | src/pages/RateLockPage.tsx:152 | "Lock History" switches to the history tab and keeps the selection. |
| RateLockPage.ClickView | src/pages/RateLockPage.tsx:164-166 | The "View Lock" button exists only with a selection and then switches to the view tab. |
| RateLockPage.LockThenView | src/pages/RateLockPage.tsx:45-72 | After a successful lock, and after the query effect re-runs on the grown list, the page shows the record just appended to the provider's list, which is active. This holds when the query id is falsy or names neither a stored lock nor the new document. |
| RateLockPage.QueryReselectsAfterCreate | src/pages/RateLockPage.tsx:45-53 | When the query id names a stored lock, the effect re-runs on the grown list after a lock is created. The page then shows the first stored lock with that id on the view tab, not the new record. |
| RateLockPage.UnknownQueryIdShowsNothing | src/pages/RateLockPage.tsx:20-53 | Opening the page with an id that names no lock lands on the view tab with nothing to show and no "View Lock" button. |
| RateLockPage.SelectionIsSnapshot | src/pages/RateLockPage.tsx:45-53 | Without a query id the selected record is a copy. Marking its id used updates the provider's list, and after the effect re-runs the selection is still the active record. |
| RateLockPage.QueryReselectsUsedRecord | src/contexts/FxRateContext.tsx:265-267 | When the query id is the marked lock's id, the effect re-selects a record with that id from the updated list. The page then shows a used record on the view tab. |
| RateLockDetails.IsExpired | src/components/exchange/RateLockDetails.tsx:22-27 | A lock counts as expired when no time is left or its stored status is expired. |
| RateLockDetails.IsUsed | src/components/exchange/RateLockDetails.tsx:28 | A lock counts as used when its stored status is used. |
| RateLockDetails.ShowsCountdown | src/components/exchange/RateLockDetails.tsx:118 | The countdown renders exactly when the lock is neither expired nor used. |
| RateLockDetails.ShowsMarkButton | src/components/exchange/RateLockDetails.tsx:177 | The "Mark as Used" button renders exactly when the lock is neither expired nor used and a callback was passed. |
| RateLockDetails.StatusText | src/components/exchange/RateLockDetails.tsx:27-38 | The badge reads "Expired" exactly when the time is up or the stored status is expired. Otherwise it reads "Used" exactly for used locks, and "Active" in all remaining cases. |
| RateLockDetails.StatusTextAgreesWithGroups | src/components/exchange/RateLockDetails.tsx:27-38 | The card agrees with the history tab for its active and expired groups. A used lock past its expiry reads "Expired" on the card while the history tab lists it as used. |
| RateLockDetails.ShownCountdownInRange | src/components/exchange/RateLockDetails.tsx:118-121 | Whenever the countdown renders, its hours are nonnegative and its minutes lie in 0..59. |
| RateLockDetails.HandleMarkAsUsed | src/components/exchange/RateLockDetails.tsx:67-78 | The callback is invoked, with the lock's id, exactly when a callback and a non-empty id exist and the lock is neither used nor expired; processing is false afterwards. |
| RateLockDetails.MarkFailureSwallowed | src/components/exchange/RateLockDetails.tsx:69-77 | A rejected callback ends the handler exactly as a successful one does. |
| RateLockDetails.ButtonClick | src/components/exchange/RateLockDetails.tsx:177 | A rendered "Mark as Used" button marks the lock on click when it has an id; a lock without an id shows the button but the click does nothing. |
| RateLockDetails.MarkFromDetails | src/components/exchange/RateLockDetails.tsx:67-78 | With the provider's mark operation as callback, a click on a fresh saved lock marks every record with its id in the provider's list. |
| RateLockDetails.QrPayloadOf | src/components/exchange/RateLockDetails.tsx:49-57 | The QR payload copies reference, both currencies, both amounts, rate and expiry unchanged from the lock. |
| RateLockDetails.QrOmitsBookkeeping | src/components/exchange/RateLockDetails.tsx:49-57 | Records differing only in id, user, status or creation time have the same QR payload. |
| RateLockDetails.QrPayloadInjective | src/components/exchange/RateLockDetails.tsx:49-57 | The payload determines the seven fields it carries. |
| RateLockDetails.QrOfCreatedLock | src/components/exchange/RateLockDetails.tsx:49-57 | The QR code of a created lock states toAmount = fromAmount * rate and an expiry 24 hours after creation, and marking the lock used does not change it. |
| Transactions.TimeExpired | src/pages/TransactionsPage.tsx:36-41 | A row is rewritten to expired exactly when it is stored as active and its expiry is at or before the clock. |
| Transactions.RewriteExpired | src/pages/TransactionsPage.tsx:33-41 | Length and order are kept. Every active lock at or past its expiry becomes stored-expired. Nothing else changes in any record. |
| Transactions.RewriteLeavesNoneTimeExpired | src/pages/TransactionsPage.tsx:36-41 | After the rewrite no row is active and past its expiry at the same clock. |
| Transactions.RewriteIdempotent | src/pages/TransactionsPage.tsx:36-41 | Rewriting twice at one clock equals rewriting once. |
| Transactions.ApplyStatusFilter | src/pages/TransactionsPage.tsx:51-59 | "all" keeps every row. Any other filter keeps exactly the rows that pass its test: the stored status for active and used, and "active and past expiry" for expired. |
| Transactions.ExpiredFilterSelectsNothing | src/pages/TransactionsPage.tsx:33-59 | With one clock value, the "expired" filter applied after the rewrite keeps no row. |
| Transactions.Lower | src/pages/TransactionsPage.tsx:63 | Lower-casing keeps the length. Each ASCII upper-case letter becomes the matching lower-case letter (code point plus 32), and every other character is unchanged. |
| Transactions.SearchMatches | src/pages/TransactionsPage.tsx:62-69 | A row matches when the lower-cased term occurs in the lower-cased from code, to code or reference. |
| Transactions.ApplySearch | src/pages/TransactionsPage.tsx:62-69 | An empty term keeps the rows. Otherwise a row is kept exactly when the lower-cased term occurs in its lower-cased from currency, to currency or reference. |
| Transactions.SearchIgnoresTermCase | src/pages/TransactionsPage.tsx:62-69 | The search selects the same rows for a term and its lower-cased form. |
| Transactions.EmptyTermMatchesAll | src/pages/TransactionsPage.tsx:62-69 | Every row matches the empty term, so skipping the search for it changes nothing. |
| Transactions.ReferenceFindsRow | src/pages/TransactionsPage.tsx:64-68 | A row's own reference finds that row. |
| Transactions.SortKey | src/pages/TransactionsPage.tsx:72-98 | The ascending sort key of a column: creation time, from amount, rate, or the status rank. |
| Transactions.Transactions | src/pages/TransactionsPage.tsx:33-101 | The table shown: active records past their expiry are first rewritten as expired, then the search, status filter and sort are applied. |
| Transactions.StatusRank | src/pages/TransactionsPage.tsx:86-93 | The status sort key is 0 for a live active lock, 2 for a stored-expired or time-expired one, and 1 for a used one. |
| Transactions.Insert | src/pages/TransactionsPage.tsx:72-98 | An insertion step adds one element and keeps the others as a multiset. |
| Transactions.InsertSorted | src/pages/TransactionsPage.tsx:72-98 | Inserting into a sequence sorted by the key keeps it sorted. |
| Transactions.SortBy | src/pages/TransactionsPage.tsx:72-98 | The sort returns a permutation of its input. |
| Transactions.SortBySorted | src/pages/TransactionsPage.tsx:72-98 | The sort's output is ordered by the key. |
| Transactions.FilteredRows | src/pages/TransactionsPage.tsx:47-69 | The two filter passes equal one filter by the combined test. The result is the order-preserving subsequence of the input that keeps exactly the rows passing both the status filter and the search, with every copy. |
| Transactions.DirectedOrder | src/pages/TransactionsPage.tsx:97 | Order by the directed key is non-decreasing by the column for ascending and non-increasing for descending. |
| Transactions.FilterAndSort | src/pages/TransactionsPage.tsx:47-101 | The table is a permutation of the filtered rows, with the same multiset, ordered by the chosen column in the chosen direction. |
| Transactions.InitialTableShowsAll | src/pages/TransactionsPage.tsx:21-44 | With the initial controls the table is a permutation of the rewritten list, newest first. |
| Transactions.ExpiredTabIsEmpty | src/pages/TransactionsPage.tsx:33-59 | With one clock value, choosing the "expired" filter empties the table. |
| Transactions.HandleSort | src/pages/TransactionsPage.tsx:104-111 | A click on the current column flips the direction; a click on another column selects it descending. Search and filter are kept. |
| Transactions.SortClickTwice | src/pages/TransactionsPage.tsx:104-111 | Two clicks on the current column restore the controls. |
| Transactions.NewColumnThenFlip | src/pages/TransactionsPage.tsx:104-111 | Clicking a new column twice sorts it ascending. |
| Transactions.StatusBadge | src/pages/TransactionsPage.tsx:114-125 | The badge reads "Expired" exactly for active locks past expiry, "Used" exactly for used locks, and "Active" for everything else, including stored-expired rows. |
| Transactions.RewrittenRowsShowActive | src/pages/TransactionsPage.tsx:114-125 | A row the rewrite marked expired, or one already stored as expired, shows "Active" at the same clock. |
| Transactions.NoExpiredBadge | src/pages/TransactionsPage.tsx:114-125 | No row of the rewritten list shows "Expired" at the rewrite's clock. |
| Dashboard.ActiveLocks | src/pages/DashboardPage.tsx:28-35 | The dashboard's active list: records stored as active whose expiry is after the effect's clock, in list order. |
| Dashboard.ActiveMatchesRateLockPage | src/pages/DashboardPage.tsx:28-35 | The dashboard's active list is exactly the rate-lock page's active group. |
| Dashboard.TotalTransactions | src/pages/DashboardPage.tsx:125 | "Total Transactions" is the size of the used group and at most the number of locks. |
| Dashboard.CardsWithinTotal | src/pages/DashboardPage.tsx:113-125 | The active and used cards together never exceed the number of locks. |
| Dashboard.PairLabel | src/pages/DashboardPage.tsx:138 | The label "from/to" of a lock's currency pair. |
| Dashboard.Labels | src/pages/DashboardPage.tsx:138 | The label set holds exactly the "from/to" labels of the locks and has at most one element per lock. |
| Dashboard.CurrencyPairs | src/pages/DashboardPage.tsx:138 | "Currency Pairs" is at most the number of locks. |
| Dashboard.Pairs | src/pages/DashboardPage.tsx:138 | The set of ordered (from, to) pairs of the locks, as reference for the label count. |
| Dashboard.LabelInjective | src/pages/DashboardPage.tsx:138 | Without '/' in the codes, a label determines its pair. |
| Dashboard.CurrencyPairsCountsPairs | src/pages/DashboardPage.tsx:138 | When no code contains '/', "Currency Pairs" equals the number of distinct ordered pairs. |
| Dashboard.SlashMergesPairs | src/pages/DashboardPage.tsx:138 | Codes containing '/' can merge two different pairs under one label, so the card undercounts. |
| Dashboard.Buckets | src/pages/DashboardPage.tsx:298-347 | The chart's counts, in display order: USD->EUR locks, EUR->USD locks, USD->GBP locks, and all other locks. |
| Dashboard.BucketsSumToTotal | src/pages/DashboardPage.tsx:298-347 | The USD/EUR, EUR/USD, USD/GBP and Other counts add up to the total shown in the chart. |
| Dashboard.ActiveCardOf | src/pages/DashboardPage.tsx:215-267 | The card shows the first min(3, n) active locks in order, with a "View more" link exactly when n > 3. |
| Dashboard.ActiveCardAccountsForAll | src/pages/DashboardPage.tsx:261-267 | The shown locks plus the "View N more" count equal the number of active locks. |
| Dashboard.StaleActiveCard | src/pages/DashboardPage.tsx:28-35 | The active list is computed when the provider list changes. A lock that expires before a later render stays listed, with a negative hour countdown. |
| Dashboard.Capitalize | src/pages/DashboardPage.tsx:387 | Capitalising keeps the length and every character after the first. A lower-case ASCII first letter becomes upper-case (code point minus 32); any other first character is unchanged. |
| Dashboard.StatusLabel | src/pages/DashboardPage.tsx:387 | The caption of a stored status: its lower-case name with the first letter capitalised. |
| Dashboard.StatusLabels | src/pages/DashboardPage.tsx:387 | The statuses read "Active", "Used" and "Expired". |
| Dashboard.RecentActivity | src/pages/DashboardPage.tsx:358-390 | Recent activity lists the first min(5, n) locks in list order, each captioned with its capitalised stored status. |
| Dashboard.RecentIgnoresClock | src/pages/DashboardPage.tsx:383-387 | A stored-active lock past its expiry is captioned "Active" in recent activity though it is missing from the active card. |
| Dashboard.ShowsViewAll | src/pages/DashboardPage.tsx:399 | The "View all activity" link renders exactly when the list is non-empty. |
| Dashboard.ViewAllIffRecent | src/pages/DashboardPage.tsx:356-403 | "View all activity" appears exactly when the recent-activity list is non-empty. |
| Converter.GetCurrentRate | src/components/exchange/CurrencyConverter.tsx:23-28 | The shown rate is null exactly when no entry has the pair. Otherwise it is the rate of the first matching entry: no earlier entry has the pair. |
| Converter.SameCurrencyHasNoRate | src/components/exchange/CurrencyConverter.tsx:23-28 | On a list without self-pairs, such as the matrix or the demo table, equal currencies have no rate. |
| Converter.Swap | src/components/exchange/CurrencyConverter.tsx:31-34 | Swapping exchanges the two currencies and keeps the amount and the last result. |
| Converter.SwapTwice | src/components/exchange/CurrencyConverter.tsx:31-34 | Swapping twice restores the state. |
| Converter.SwapInvertsRate | src/components/exchange/CurrencyConverter.tsx:23-34 | On a list derived from one base table, the rates shown before and after a swap are reciprocals. |
| Converter.MatrixShowsBothDirections | src/components/exchange/CurrencyConverter.tsx:23-34 | On the matrix, two distinct listed currencies have a rate in both directions. |
| Converter.ConversionEffect | src/components/exchange/CurrencyConverter.tsx:37-42 | With a nonzero amount and both codes non-empty, the result becomes the provider's conversion; otherwise the previous result stays. The pair and the amount are never changed. |
| Converter.ZeroAmountKeepsStaleResult | src/components/exchange/CurrencyConverter.tsx:37-42 | Typing 0 after a conversion keeps showing the earlier result. |
| Converter.HandleLockRate | src/components/exchange/CurrencyConverter.tsx:58-62 | A lock request is sent, carrying the pair, the amount and the shown rate, exactly when a callback exists, the amount is nonzero and a nonzero rate is shown. |
| Converter.LockButtonEnabled | src/components/exchange/CurrencyConverter.tsx:189-193 | The lock button is enabled exactly when nothing is loading and a nonzero rate is shown. |
| Converter.SameCurrencyCannotLock | src/components/exchange/CurrencyConverter.tsx:189-193 | For equal currencies on a list without self-pairs, the lock button is disabled and the handler sends nothing. |
| Converter.EnabledButtonSends | src/components/exchange/CurrencyConverter.tsx:58-62 | An enabled button, with a callback and a nonzero amount, sends a request. |
| Converter.LockedAmountMatchesDisplay | src/components/exchange/CurrencyConverter.tsx:37-62 | The lock created from the widget's request records as toAmount the same value the widget shows as converted. |
| PilotTab.TrimStart | src/pages/PilotTab.tsx:158 | The leading whitespace `parseFloat` skips: the result is a suffix of the input that does not start with a space, tab, CR or LF. |
| PilotTab.ScanMantissa | src/pages/PilotTab.tsx:158 | A number prefix is read exactly when the text starts with a digit, or with a point followed by a digit; the value read is nonnegative and something is consumed. |
| PilotTab.ParseDecimal | src/pages/PilotTab.tsx:158 | `parseFloat` yields a number exactly when, after leading whitespace and one sign, the text starts with a digit or with a point and a digit. |
| PilotTab.ParsedAmount | src/pages/PilotTab.tsx:158 | `parseFloat(amount) \|\| 0` is the parsed value, or 0 when nothing parses. |
| PilotTab.UnparseableIsZero | src/pages/PilotTab.tsx:158 | Text with no number prefix counts as amount 0. |
| PilotTab.EmptyIsZero | src/pages/PilotTab.tsx:158 | The empty amount counts as 0. |
| PilotTab.NatStringValue | src/pages/PilotTab.tsx:158 | The decimal digits of a natural number denote that number. |
| PilotTab.ParseNatString | src/pages/PilotTab.tsx:158 | The decimal text of a natural number parses back to that number. |
| PilotTab.ParseNegatedNatString | src/pages/PilotTab.tsx:158 | A minus sign before the decimal text of n parses to -n. |
| PilotTab.ParseStopsAtNonDigit | src/pages/PilotTab.tsx:158 | Parsing stops at the first character that cannot continue the number, ignoring trailing text. |
| PilotTab.ParseFractionExample | src/pages/PilotTab.tsx:158 | "2.5" parses to 2.5. |
| PilotTab.ParseExponentExample | src/pages/PilotTab.tsx:158 | "1e3" parses to 1000. |
| PilotTab.ParseLonePoint | src/pages/PilotTab.tsx:158 | A point not followed by a digit does not parse. |
| PilotTab.RateOr1 | src/pages/PilotTab.tsx:159-160 | A missing or zero rate counts as 1, and any other rate is used as is; the result is never zero. |
| PilotTab.ConvertValue | src/pages/PilotTab.tsx:159-162 | The amount divided by the source rate and multiplied by the target rate, each taken as 1 when missing or zero. |
| PilotTab.Converted | src/pages/PilotTab.tsx:157-163 | The conversion of the parsed amount, before `toFixed(2)`. |
| PilotTab.ConvertedValue | src/pages/PilotTab.tsx:157-163 | With both rates present and nonzero, the converted value is amount / rate(from) * rate(to); with neither, it is the amount. |
| PilotTab.ShowsConversion | src/pages/PilotTab.tsx:259 | The conversion panel is shown exactly when the amount text is non-empty and no rates request is pending. |
| PilotTab.SameCurrencyIdentity | src/pages/PilotTab.tsx:157-163 | Converting a currency to itself returns the amount. |
| PilotTab.UnparseableConvertsToZero | src/pages/PilotTab.tsx:157-163 | An unparseable amount converts to 0. |
| PilotTab.DisplayRate | src/pages/PilotTab.tsx:266 | The unit-rate line has a value exactly when the target currency has a rate. |
| PilotTab.DisplayMatchesUnitConversion | src/pages/PilotTab.tsx:266 | With a present, nonzero target rate, the unit-rate line equals the conversion of amount "1". |
| PilotTab.ZeroTargetDisagrees | src/pages/PilotTab.tsx:266 | With a zero target rate, the unit-rate line shows 0 while the conversion of "1" is nonzero: only the source rate is defaulted in the display. |
| PilotTab.FetchPilotRates | src/pages/PilotTab.tsx:112-151 | Loading ends either way. A payload with `rates` replaces the table and clears the error. A failed fetch or a payload without `rates` installs the mock table with the error message. |
| PilotTab.MockRatesKeys | src/pages/PilotTab.tsx:101-147 | The mock table has a rate for exactly the eight selectable currencies. |
| PilotTab.MockRatesPositive | src/pages/PilotTab.tsx:138-147 | The mock table has USD = 1 and only positive rates. |
| PilotTab.FallbackDollarToPeso | src/pages/PilotTab.tsx:135-163 | After a failed fetch, 1 USD converts to 17.15 MXN. |
| PilotTab.InitialConversion | src/pages/PilotTab.tsx:66-69 | Before any rates arrive, the default 1 USD converts to 1 MXN, both rates counting as 1. |
| Profile.InitialPreferred | src/pages/ProfilePage.tsx:11-13 | A missing stored list becomes USD, EUR, GBP, JPY. Any stored list, even an empty one, is kept. |
| Profile.DefaultPreferredWellFormed | src/pages/ProfilePage.tsx:11-13 | The default list has four distinct codes. |
| Profile.ToggleCurrency | src/pages/ProfilePage.tsx:20-30 | The updated flag is always set. An absent code is appended. A listed code is removed only when more than two are listed, and otherwise the list is kept. Membership of every other code is unchanged. |
| Profile.Without | src/pages/ProfilePage.tsx:24 | The list with every occurrence of the code removed, the rest in order. |
| Profile.WithoutLength | src/pages/ProfilePage.tsx:24 | Removal drops exactly the occurrences of the code. |
| Profile.WithoutNoDup | src/pages/ProfilePage.tsx:24 | Removal keeps a list free of duplicates. |
| Profile.WithoutKeepsOrder | src/pages/ProfilePage.tsx:24 | Removal keeps the remaining codes in their order. |
| Profile.ToggleKeepsInvariant | src/pages/ProfilePage.tsx:20-30 | A duplicate-free list of at least two codes stays so under any toggle. |
| Profile.ToggleRemovesOne | src/pages/ProfilePage.tsx:21-25 | Removing a listed code from a duplicate-free list of more than two shortens it by one and keeps the rest in order. |
| Profile.ToggleTwiceRestores | src/pages/ProfilePage.tsx:20-30 | Adding an unlisted code and toggling it again restores a list of at least two codes. |
| Profile.ToggleTwiceShortList | src/pages/ProfilePage.tsx:21-28 | With one listed code, adding a second and toggling it again keeps both: the minimum blocks the removal. |
| Faq.InitialAccordion | src/components/layout/Faq.tsx:53 | The accordion starts with nothing open. |
| Faq.ToggleItem | src/components/layout/Faq.tsx:55-73 | The clicked item flips. No other item opens. Other items stay open in multiple mode or when closing. Opening in single mode leaves exactly the clicked item open. |
| Faq.ToggleTwiceMultiple | src/components/layout/Faq.tsx:55-73 | In multiple mode, toggling an item twice restores the state. |
| Faq.ToggleTwiceSingle | src/components/layout/Faq.tsx:55-73 | In single mode, opening a closed item and closing it again leaves nothing open. |
| Faq.SingleModeOpensLastClicked | src/components/layout/Faq.tsx:62-68 | In single mode at most one item is open after any clicks, and it is the last one clicked. |
| Faq.SingleModeAtMostOne | src/components/layout/Faq.tsx:53-73 | From the initial state, single mode never shows two answers at once. |
| Faq.MultipleModeParity | src/components/layout/Faq.tsx:55-73 | In multiple mode an item is open exactly when its initial state and the parity of its clicks differ. |
| Faq.MultipleModeFromStart | src/components/layout/Faq.tsx:53-73 | From the initial state, multiple mode shows exactly the items clicked an odd number of times. |
| Register.Checks | src/pages/RegisterPage.tsx:21-34 | The four checks in the order they run, each with its message: all fields filled, passwords equal, at least six characters, terms accepted. |
| Register.FirstFailure | src/pages/RegisterPage.tsx:21-34 | There is no failure message exactly when every check passes. |
| Register.Validate | src/pages/RegisterPage.tsx:21-34 | Each message appears exactly when its check fails and all earlier checks pass; there is no message exactly when all four pass. |
| Register.ValidateIsFirstFailure | src/pages/RegisterPage.tsx:21-34 | The early returns agree with taking the first failing check of the ordered list. |
| Register.HandleSubmit | src/pages/RegisterPage.tsx:18-47 | `register` is called, with email, password and name, exactly when all checks pass. A failed check shows its message without touching loading or navigation. After a call loading is false; success clears the error and navigates; a rejection shows the thrown message, or the default when that is empty. |
| Register.PasswordLengthBoundary | src/pages/RegisterPage.tsx:29-31 | An otherwise valid form registers with a 6-character password and is refused with the length message at 5. |
| Register.BlankFieldFirst | src/pages/RegisterPage.tsx:21-23 | A blank field is reported before any other problem and nothing is registered. |
| Register.RejectionShowsError | src/pages/RegisterPage.tsx:41-46 | A rejected registration always leaves a non-empty error and loading false. |

## Left out

- Firestore and authentication I/O (`addDoc`, `updateDoc`, `getLockedRates`, `register`, the signed-in user) are explicit outcome parameters; the stored documents are not modelled.
- The rate fetch, its JSON parsing and the 5-minute refresh timer are not modelled. `fetchRates` takes a payload (unreachable, without `rates`, or the `rates` table), and `fetchExchangeRates` in the pilot tab takes a response.
- FxRates.FetchRates, FxRates.BuildMatrix, FxRates.CrossRows, FxRates.CrossRow and FxRates.DerivedRate: each requires a nonzero rate for every catalog code it divides by (`Derivable` / `HasRate`). JavaScript would otherwise emit NaN or Infinity entries, and the reals have no such values.
- Floating point is not modelled. Amounts and rates are exact reals, so rounding, `toFixed`, `toLocaleString` and `Intl` formatting are absent.
- Clocks are one integer `now` per render or effect. `setHours(+24)` is taken as exactly 86 400 000 ms, which ignores daylight-saving changes. The separate `new Date()` calls for creation and expiry, and the server timestamp written to the store, are collapsed into that one value.
- The random reference is an input; its uniqueness is not guaranteed by the code and not assumed here.
- The `parseFloat` model reads an optional sign, digits with an optional fraction, and an optional exponent, after leading space, tab, CR or LF. It does not model "Infinity", other Unicode whitespace, or rounding to a double.
- Transactions.Lower and Dashboard.Capitalize change only ASCII letters, not full Unicode case mapping.
- Register.Validate measures the password length in characters, not UTF-16 code units.
- Transactions.SortBy: the model is a stable insertion sort, matching the stable `Array.prototype.sort`, but stability itself is not stated.
- Transactions.StatusRank: the comparator reads its own `new Date()`. It is modelled with the same `later` clock as the expired filter, separate from the rewrite's clock.
- `src/pages/LoginPage.tsx` repeats the pilot-tab converter and is modelled once, as PilotTab.
- `src/components/EnhancedHeroSection.tsx` is a fetch-driven presentation component and is not part of this model.
- Not modelled, as presentation or placeholder code:
  - the dashboard's hard-coded trend chart;
  - the profile page's save and password stubs;
  - notification timers, clipboard copying and QR rendering (the QR payload itself is modelled);
  - routing and all other pages.
- Concurrency, such as overlapping refreshes or double clicks on "Mark as Used", is not modelled; the code has no coordination for it.

=== FILE: converter.dfy ===
/** `CurrencyConverter`: the widget's pair/amount state, the rate it shows,
    the swap button, the conversion effect and the lock request it hands to
    its `onLockRate` callback. */
module Converter {
  import opened Wrappers
  import opened FxRates
  import opened RateLocks

  /** The widget's state; `converted` is `null` until the effect first runs. */
  datatype ConverterState = ConverterState(from: Code, to: Code, amount: real, converted: Option<real>)

  /** USD to EUR, amount 100, nothing converted yet. */
  const InitialConverter: ConverterState := ConverterState("USD", "EUR", 100.0, None)

  /** `getCurrentRate`: the rate of the first entry for the pair, else `null`. */
  function GetCurrentRate(rates: seq<ExchangeRate>, s: ConverterState): (r: Option<real>)
    ensures r.None? <==> forall e :: e in rates ==> !(e.fromCurrency == s.from && e.toCurrency == s.to)
    ensures r.Some? ==> exists e :: e in rates && e.fromCurrency == s.from && e.toCurrency == s.to && e.rate == r.value
    ensures r.Some? ==> exists i :: 0 <= i < |rates|
                          && rates[i].fromCurrency == s.from && rates[i].toCurrency == s.to
                          && rates[i].rate == r.value
                          && forall j :: 0 <= j < i ==>
                               !(rates[j].fromCurrency == s.from && rates[j].toCurrency == s.to)
  {
    FindRate(rates, s.from, s.to)
  }

  /** A list without self-pairs (such as the derived matrix or the demo
      table) gives no rate when both sides are the same currency. */
  lemma SameCurrencyHasNoRate(rates: seq<ExchangeRate>, s: ConverterState)
    requires forall e :: e in rates ==> e.fromCurrency != e.toCurrency
    requires s.from == s.to
    ensures GetCurrentRate(rates, s).None?
  {
  }

  /** `handleSwapCurrencies`. */
  function Swap(s: ConverterState): (t: ConverterState)
    ensures t.from == s.to && t.to == s.from
    ensures t.amount == s.amount && t.converted == s.converted
  {
    s.(from := s.to, to := s.from)
  }

  lemma SwapTwice(s: ConverterState)
    ensures Swap(Swap(s)) == s
  {
  }

  /** On a list derived from one base (such as the rate matrix), swapping
      turns the shown rate into its reciprocal. */
  lemma SwapInvertsRate(m: seq<ExchangeRate>, base: BaseTable, s: ConverterState, r1: real, r2: real)
    requires FromBase(m, base)
    requires GetCurrentRate(m, s) == Some(r1) && GetCurrentRate(m, Swap(s)) == Some(r2)
    ensures r1 * r2 == 1.0
  {
    var e1 :| e1 in m && e1.fromCurrency == s.from && e1.toCurrency == s.to && e1.rate == r1;
    var e2 :| e2 in m && e2.fromCurrency == s.to && e2.toCurrency == s.from && e2.rate == r2;
    DerivedPairReciprocal(base, s.from, s.to, r1, r2);
  }

  /** On the matrix both directions of a pair of listed currencies have a rate. */
  lemma MatrixShowsBothDirections(codes: seq<Code>, base: BaseTable, now: int, s: ConverterState)
    requires Derivable(codes, base)
    requires s.from in codes && s.to in codes && s.from != s.to
    ensures GetCurrentRate(BuildMatrix(codes, base, now), s).Some?
    ensures GetCurrentRate(BuildMatrix(codes, base, now), Swap(s)).Some?
    ensures FromBase(BuildMatrix(codes, base, now), base)
  {
    MatrixLookup(codes, base, now, s.amount, s.from, s.to);
    MatrixLookup(codes, base, now, s.amount, s.to, s.from);
    MatrixFromBase(codes, base, now);
  }

  /** The conversion effect: `if (amount && fromCurrency && toCurrency)`.
      A zero amount or an empty code leaves the previous result in place. */
  function ConversionEffect(rates: seq<ExchangeRate>, s: ConverterState): (t: ConverterState)
    ensures t.from == s.from && t.to == s.to && t.amount == s.amount
    ensures s.amount == 0.0 || s.from == "" || s.to == "" ==> t.converted == s.converted
    ensures s.amount != 0.0 && s.from != "" && s.to != "" ==>
              t.converted == ConvertAmount(rates, s.amount, s.from, s.to)
  {
    if s.amount != 0.0 && s.from != "" && s.to != "" then
      s.(converted := ConvertAmount(rates, s.amount, s.from, s.to))
    else s
  }

  /** Typing 0 after a conversion keeps showing the earlier result. */
  lemma ZeroAmountKeepsStaleResult(rates: seq<ExchangeRate>, s: ConverterState)
    requires s.from != "" && s.to != "" && s.amount != 0.0
    ensures var t := ConversionEffect(rates, ConversionEffect(rates, s).(amount := 0.0));
            t.converted == ConvertAmount(rates, s.amount, s.from, s.to)
  {
  }

  /** What `onLockRate` receives. */
  datatype LockRequest = LockRequest(from: Code, to: Code, amount: real, rate: real)

  /** `handleLockRate`: `onLockRate && amount && currentRate`; a zero rate is
      falsy like a missing one. */
  function HandleLockRate(rates: seq<ExchangeRate>, s: ConverterState, hasCallback: bool): (r: Option<LockRequest>)
    ensures r.Some? <==>
              hasCallback && s.amount != 0.0
              && GetCurrentRate(rates, s).Some? && GetCurrentRate(rates, s).value != 0.0
    ensures r.Some? ==> r.value == LockRequest(s.from, s.to, s.amount, GetCurrentRate(rates, s).value)
  {
    var rate := GetCurrentRate(rates, s);
    if hasCallback && s.amount != 0.0 && rate.Some? && rate.value != 0.0 then
      Some(LockRequest(s.from, s.to, s.amount, rate.value))
    else None
  }

  /** `disabled={isLoading || !currentRate}`. */
  predicate LockButtonEnabled(rates: seq<ExchangeRate>, s: ConverterState, isLoading: bool)
  {
    !isLoading && GetCurrentRate(rates, s).Some? && GetCurrentRate(rates, s).value != 0.0
  }

  /** A same-currency pair cannot be locked: the button is disabled and the
      handler sends nothing. */
  lemma SameCurrencyCannotLock(rates: seq<ExchangeRate>, s: ConverterState, isLoading: bool, hasCallback: bool)
    requires forall e :: e in rates ==> e.fromCurrency != e.toCurrency
    requires s.from == s.to
    ensures !LockButtonEnabled(rates, s, isLoading)
    ensures HandleLockRate(rates, s, hasCallback).None?
  {
  }

  /** An enabled button with a callback and a nonzero amount sends a request. */
  lemma EnabledButtonSends(rates: seq<ExchangeRate>, s: ConverterState)
    requires LockButtonEnabled(rates, s, false) && s.amount != 0.0
    ensures HandleLockRate(rates, s, true).Some?
  {
  }

  /** The lock created from a request records the same amount the widget
      shows as converted. */
  lemma LockedAmountMatchesDisplay(rates: seq<ExchangeRate>, s: ConverterState, uid: string,
                                   locks: seq<RateLock>, now: int, reference: string, docId: string)
    requires s.from != "" && s.to != "" && s.from != s.to
    requires HandleLockRate(rates, s, true).Some?
    ensures var q := HandleLockRate(rates, s, true).value;
            var c := CreateRateLock(Some(uid), locks, q.from, q.to, q.amount, q.rate, now, reference, Ok(docId));
            ConversionEffect(rates, s).converted == Some(c.lock.value.toAmount)
  {
    var q := HandleLockRate(rates, s, true).value;
    var c := CreateRateLock(Some(uid), locks, q.from, q.to, q.amount, q.rate, now, reference, Ok(docId));
    assert s.amount != 0.0 && FindRate(rates, s.from, s.to) == Some(q.rate);
    ConvertFound(rates, s.amount, s.from, s.to, q.rate);
    var shown := ConversionEffect(rates, s).converted;
    assert shown == ConvertAmount(rates, s.amount, s.from, s.to);
    var locked := c.lock.value.toAmount;
    assert locked == s.amount * q.rate;
    assert shown.value == locked;
  }
}

=== FILE: dashboard.dfy ===
/** `DashboardPage`: the summary cards, the active-locks card, the currency
    distribution and the recent-activity list, all computed from the
    provider's list of locks. */
module Dashboard {
  import opened Wrappers
  import opened Seqs
  import opened RateLocks
  import RateLockPage

  // ---------------------------------------------------------------------------
  // Summary cards
  // ---------------------------------------------------------------------------

  /** The effect's filter: stored active and not past expiry at `now`. */
  function ActiveLocks(locks: seq<RateLock>, now: int): seq<RateLock>
  {
    Filter(locks, (l: RateLock) => l.status == Active && l.expiresAt > now)
  }

  /** The dashboard's active list is the rate-lock page's active group. */
  lemma ActiveMatchesRateLockPage(locks: seq<RateLock>, now: int)
    ensures ActiveLocks(locks, now) == RateLockPage.ActiveRates(locks, now)
  {
    FilterCongruent(locks, (l: RateLock) => l.status == Active && l.expiresAt > now,
                    l => RateLockPage.IsActiveAt(l, now));
  }

  /** "Total Transactions": the number of used locks. */
  function TotalTransactions(locks: seq<RateLock>): (n: nat)
    ensures n <= |locks|
    ensures n == |RateLockPage.UsedRates(locks)|
  {
    FilterCongruent(locks, (l: RateLock) => l.status == Used, RateLockPage.IsUsedLock);
    |Filter(locks, (l: RateLock) => l.status == Used)|
  }

  /** The active and used cards never add up to more than the list, and the
      rest are the clock-expired and stored-expired records. */
  lemma CardsWithinTotal(locks: seq<RateLock>, now: int)
    ensures |ActiveLocks(locks, now)| + TotalTransactions(locks)
            + |RateLockPage.ExpiredRates(locks, now)| + |RateLockPage.StoredExpired(locks)| == |locks|
  {
    ActiveMatchesRateLockPage(locks, now);
    FilterCongruent(locks, (l: RateLock) => l.status == Used, RateLockPage.IsUsedLock);
    RateLockPage.GroupsPartition(locks, now);
    assert |multiset(locks)| == |locks|;
  }

  // ---------------------------------------------------------------------------
  // Currency pairs
  // ---------------------------------------------------------------------------

  /** The template string `${from}/${to}`. */
  function PairLabel(l: RateLock): string
  {
    l.fromCurrency + "/" + l.toCurrency
  }

  /** The set of labels: `new Set(locks.map(...))`. */
  function Labels(locks: seq<RateLock>): (r: set<string>)
    ensures |r| <= |locks|
    ensures forall l :: l in locks ==> PairLabel(l) in r
    ensures forall x :: x in r ==> exists l :: l in locks && PairLabel(l) == x
  {
    if locks == [] then {}
    else
      assert forall l :: l in locks ==> l == locks[0] || l in locks[1..];
      Labels(locks[1..]) + {PairLabel(locks[0])}
  }

  /** "Currency Pairs": the size of the label set. */
  function CurrencyPairs(locks: seq<RateLock>): (n: nat)
    ensures n <= |locks|
  {
    |Labels(locks)|
  }

  /** The distinct ordered (from, to) pairs of the list. */
  function Pairs(locks: seq<RateLock>): (r: set<(string, string)>)
    ensures forall l :: l in locks ==> (l.fromCurrency, l.toCurrency) in r
    ensures forall p :: p in r ==> exists l :: l in locks && (l.fromCurrency, l.toCurrency) == p
  {
    if locks == [] then {}
    else
      assert forall l :: l in locks ==> l == locks[0] || l in locks[1..];
      Pairs(locks[1..]) + {(locks[0].fromCurrency, locks[0].toCurrency)}
  }

  lemma CardAddOne<T>(s: set<T>, a: T)
    ensures |s + {a}| == if a in s then |s| else |s| + 1
  {
    if a in s {
      assert s + {a} == s;
    }
  }

  predicate NoSlash(s: string)
  {
    '/' !in s
  }

  /** Without '/' in the codes, the label determines the pair. */
  lemma LabelInjective(a: string, b: string, c: string, d: string)
    requires NoSlash(a) && NoSlash(b) && NoSlash(c) && NoSlash(d)
    requires a + "/" + b == c + "/" + d
    ensures a == c && b == d
  {
    var x, y := a + "/" + b, c + "/" + d;
    CharAt(a, b, |a|);
    CharAt(a, b, |c|);
    CharAt(c, d, |a|);
    CharAt(c, d, |c|);
    assert |a| == |c|;
    assert a == x[..|a|] == y[..|c|] == c;
    assert b == x[|a| + 1..] == y[|c| + 1..] == d;
  }

  /** The characters of a label before and at the separator. */
  lemma CharAt(a: string, b: string, i: int)
    ensures 0 <= i < |a| ==> (a + "/" + b)[i] == a[i]
    ensures i == |a| ==> (a + "/" + b)[i] == '/'
  {
  }

  /** When no code contains '/', "Currency Pairs" counts the distinct ordered pairs. */
  lemma {:induction false} CurrencyPairsCountsPairs(locks: seq<RateLock>)
    requires forall l :: l in locks ==> NoSlash(l.fromCurrency) && NoSlash(l.toCurrency)
    ensures CurrencyPairs(locks) == |Pairs(locks)|
  {
    if locks != [] {
      var h, rest := locks[0], locks[1..];
      assert forall l :: l in rest ==> l in locks;
      CurrencyPairsCountsPairs(rest);
      assert h in locks;
      var lab, pair := PairLabel(h), (h.fromCurrency, h.toCurrency);
      SeenLabelIffSeenPair(h, rest);
      CountBothOrNeither(Labels(rest), Pairs(rest), lab, pair);
    }
  }

  /** Two sets of equal size stay equal in size when each gains an element
      that is new to one exactly when it is new to the other. */
  lemma CountBothOrNeither<A, B>(xs: set<A>, ys: set<B>, x: A, y: B)
    requires |xs| == |ys|
    requires x in xs <==> y in ys
    ensures |xs + {x}| == |ys + {y}|
  {
    CardAddOne(xs, x);
    CardAddOne(ys, y);
  }

  /** Without '/' in the codes, a record's label was seen before exactly when
      its pair was. */
  lemma SeenLabelIffSeenPair(h: RateLock, rest: seq<RateLock>)
    requires NoSlash(h.fromCurrency) && NoSlash(h.toCurrency)
    requires forall l :: l in rest ==> NoSlash(l.fromCurrency) && NoSlash(l.toCurrency)
    ensures PairLabel(h) in Labels(rest) <==> (h.fromCurrency, h.toCurrency) in Pairs(rest)
  {
    var lab, pair := PairLabel(h), (h.fromCurrency, h.toCurrency);
    if lab in Labels(rest) {
      var l :| l in rest && PairLabel(l) == lab;
      LabelInjective(h.fromCurrency, h.toCurrency, l.fromCurrency, l.toCurrency);
    }
    if pair in Pairs(rest) {
      var l :| l in rest && (l.fromCurrency, l.toCurrency) == pair;
      assert PairLabel(l) == lab;
    }
  }

  /** With '/' inside codes, two different pairs share a label and are
      counted once. */
  lemma SlashMergesPairs(a: RateLock, b: RateLock)
    requires a.fromCurrency == "A/B" && a.toCurrency == "C"
    requires b.fromCurrency == "A" && b.toCurrency == "B/C"
    ensures CurrencyPairs([a, b]) == 1
    ensures |Pairs([a, b])| == 2
  {
    SameLabel(a, b);
    assert [a, b][1..] == [b];
    assert Labels([a, b]) == Labels([b]) + {PairLabel(a)};
    assert Pairs([a, b]) == Pairs([b]) + {("A/B", "C")};
  }

  lemma SameLabel(a: RateLock, b: RateLock)
    requires a.fromCurrency == "A/B" && a.toCurrency == "C"
    requires b.fromCurrency == "A" && b.toCurrency == "B/C"
    ensures PairLabel(a) == PairLabel(b) == "A/B/C"
  {
  }

  // ---------------------------------------------------------------------------
  // Currency distribution
  // ---------------------------------------------------------------------------

  predicate IsPair(l: RateLock, from: string, to: string)
  {
    l.fromCurrency == from && l.toCurrency == to
  }

  predicate IsOther(l: RateLock)
  {
    !(IsPair(l, "USD", "EUR") || IsPair(l, "EUR", "USD") || IsPair(l, "USD", "GBP"))
  }

  /** The four bucket counts, in display order. */
  function Buckets(locks: seq<RateLock>): seq<nat>
  {
    [ |Filter(locks, l => IsPair(l, "USD", "EUR"))|,
      |Filter(locks, l => IsPair(l, "EUR", "USD"))|,
      |Filter(locks, l => IsPair(l, "USD", "GBP"))|,
      |Filter(locks, IsOther)| ]
  }

  /** The four buckets add up to the total shown in the middle of the chart. */
  lemma {:induction false} BucketsSumToTotal(locks: seq<RateLock>)
    ensures var b := Buckets(locks); b[0] + b[1] + b[2] + b[3] == |locks|
  {
    if locks != [] {
      BucketsSumToTotal(locks[1..]);
    }
  }

  // ---------------------------------------------------------------------------
  // Truncated lists
  // ---------------------------------------------------------------------------

  function Min(a: int, b: int): int
  {
    if a <= b then a else b
  }

  /** The active card: the first three active locks, and "View N more" when
      there are more than three. */
  datatype ActiveCard = ActiveCard(shown: seq<RateLock>, more: Option<nat>)

  function ActiveCardOf(active: seq<RateLock>): (c: ActiveCard)
    ensures |c.shown| == Min(3, |active|)
    ensures c.shown == active[..|c.shown|]
    ensures c.more.Some? <==> |active| > 3
  {
    if |active| > 3 then ActiveCard(active[..3], Some(|active| - 3))
    else ActiveCard(active, None)
  }

  /** The shown locks and the "more" count account for every active lock. */
  lemma ActiveCardAccountsForAll(active: seq<RateLock>)
    ensures |ActiveCardOf(active).shown| + ActiveCardOf(active).more.GetOr(0) == |active|
  {
  }

  /** The card's list is computed when the provider's list changes, not on
      every render: a lock that expires afterwards stays on the card and
      its countdown goes negative. */
  lemma StaleActiveCard(locks: seq<RateLock>, computedAt: int, renderedAt: int, l: RateLock)
    requires l in ActiveLocks(locks, computedAt)
    requires l.expiresAt < renderedAt
    ensures l in ActiveLocks(locks, computedAt)
    ensures RateLockPage.CountdownOf(l.expiresAt - renderedAt).hours < 0
  {
  }

  /** The stored status with its first letter capitalised. */
  function StatusLabel(s: Status): string
  {
    Capitalize(match s
      case Active => "active"
      case Used => "used"
      case Expired => "expired")
  }

  /** `charAt(0).toUpperCase() + slice(1)` on ASCII. */
  function Capitalize(w: string): (r: string)
    ensures |r| == |w|
    ensures |w| > 0 ==> r[1..] == w[1..]
    ensures |w| > 0 ==> if 'a' <= w[0] <= 'z' then r[0] as int == w[0] as int - 32 else r[0] == w[0]
  {
    if w == [] then []
    else if 'a' <= w[0] <= 'z' then [(w[0] as int - 32) as char] + w[1..]
    else w
  }

  lemma StatusLabels()
    ensures StatusLabel(Active) == "Active"
    ensures StatusLabel(Used) == "Used"
    ensures StatusLabel(Expired) == "Expired"
  {
  }

  /** One line of the recent-activity list. */
  datatype ActivityLine = ActivityLine(lock: RateLock, caption: string)

  /** The first five locks in list order, labelled by stored status. */
  function RecentActivity(locks: seq<RateLock>): (r: seq<ActivityLine>)
    ensures |r| == Min(5, |locks|)
    ensures forall i :: 0 <= i < |r| ==> r[i].lock == locks[i] && r[i].caption == StatusLabel(locks[i].status)
  {
    var n := Min(5, |locks|);
    seq(n, i requires 0 <= i < n => ActivityLine(locks[i], StatusLabel(locks[i].status)))
  }

  /** Recent activity labels by the stored status, so a lock past its expiry
      that was never rewritten reads "Active" there while the active card
      (computed at the same time) leaves it out. */
  lemma RecentIgnoresClock(locks: seq<RateLock>, now: int)
    requires |locks| > 0 && locks[0].status == Active && locks[0].expiresAt <= now
    ensures RecentActivity(locks)[0].caption == "Active"
    ensures locks[0] !in ActiveLocks(locks, now)
  {
    StatusLabels();
  }

  /** "View all activity" appears exactly when there is some lock. */
  predicate ShowsViewAll(locks: seq<RateLock>)
  {
    |locks| > 0
  }

  lemma ViewAllIffRecent(locks: seq<RateLock>)
    ensures ShowsViewAll(locks) <==> |RecentActivity(locks)| > 0
  {
  }
}

=== FILE: faq.dfy ===
/** `Faq`: the accordion's set of open items and its toggle, in single-open
    (the default) or multiple-open mode. */
module Faq {
  import opened Seqs

  /** The open item ids and the `allowMultiple` prop. */
  datatype Accordion = Accordion(open: set<string>, allowMultiple: bool)

  /** Nothing is open at first. */
  function InitialAccordion(allowMultiple: bool): (a: Accordion)
    ensures a.open == {} && a.allowMultiple == allowMultiple
  {
    Accordion({}, allowMultiple)
  }

  /** `isOpen`. */
  predicate IsOpen(a: Accordion, id: string)
  {
    id in a.open
  }

  /** `toggleItem`: close an open item; otherwise open it, first closing
      every other item in single mode. */
  function ToggleItem(a: Accordion, id: string): (b: Accordion)
    ensures b.allowMultiple == a.allowMultiple
    ensures IsOpen(b, id) <==> !IsOpen(a, id)
    ensures forall x :: x != id && IsOpen(b, x) ==> IsOpen(a, x)
    ensures forall x :: x != id && IsOpen(a, x) && (a.allowMultiple || IsOpen(a, id)) ==> IsOpen(b, x)
    ensures !a.allowMultiple && !IsOpen(a, id) ==> b.open == {id}
  {
    if id in a.open then a.(open := a.open - {id})
    else if !a.allowMultiple then a.(open := {id})
    else a.(open := a.open + {id})
  }

  /** The state after clicking the given headers in order. */
  function Clicks(a: Accordion, ids: seq<string>): (b: Accordion)
    ensures b.allowMultiple == a.allowMultiple
    decreases |ids|
  {
    if ids == [] then a else Clicks(ToggleItem(a, ids[0]), ids[1..])
  }

  /** In multiple mode, toggling the same item twice restores the state. */
  lemma ToggleTwiceMultiple(a: Accordion, id: string)
    requires a.allowMultiple
    ensures ToggleItem(ToggleItem(a, id), id) == a
  {
  }

  /** In single mode, opening a closed item and closing it again leaves
      nothing open, whatever was open before. */
  lemma ToggleTwiceSingle(a: Accordion, id: string)
    requires !a.allowMultiple && !IsOpen(a, id)
    ensures ToggleItem(ToggleItem(a, id), id).open == {}
  {
  }

  /** In single mode at most one item is open after any clicks, and it is
      the last header clicked. */
  lemma {:induction false} SingleModeOpensLastClicked(a: Accordion, ids: seq<string>)
    requires !a.allowMultiple && |a.open| <= 1
    ensures |Clicks(a, ids).open| <= 1
    ensures ids != [] ==> Clicks(a, ids).open <= {ids[|ids| - 1]}
    decreases |ids|
  {
    if ids != [] {
      var b := ToggleItem(a, ids[0]);
      if ids[0] in a.open {
        OnlyMember(a.open, ids[0]);
        assert b.open == {};
      }
      assert |b.open| <= 1;
      SingleModeOpensLastClicked(b, ids[1..]);
      if |ids| > 1 {
        assert ids[1..][|ids[1..]| - 1] == ids[|ids| - 1];
      }
    }
  }

  /** A set of at most one element is the singleton of any member. */
  lemma OnlyMember(s: set<string>, y: string)
    requires |s| <= 1 && y in s
    ensures s == {y}
  {
    var r := s - {y};
    assert s == r + {y};
    assert |r| == 0;
  }

  /** Starting closed, single mode never shows two answers at once. */
  lemma SingleModeAtMostOne(ids: seq<string>)
    ensures |Clicks(InitialAccordion(false), ids).open| <= 1
  {
    SingleModeOpensLastClicked(InitialAccordion(false), ids);
  }

  /** In multiple mode an item's state flips on each click of its header
      and on nothing else: it is open exactly when its initial state and
      the parity of its clicks differ. */
  lemma {:induction false} MultipleModeParity(a: Accordion, ids: seq<string>, x: string)
    requires a.allowMultiple
    ensures IsOpen(Clicks(a, ids), x) <==> (IsOpen(a, x) != (Occ(ids, x) % 2 == 1))
    decreases |ids|
  {
    if ids != [] {
      MultipleModeParity(ToggleItem(a, ids[0]), ids[1..], x);
    }
  }

  /** From the initial state, multiple mode shows exactly the items clicked
      an odd number of times. */
  lemma MultipleModeFromStart(ids: seq<string>, x: string)
    ensures IsOpen(Clicks(InitialAccordion(true), ids), x) <==> Occ(ids, x) % 2 == 1
  {
    MultipleModeParity(InitialAccordion(true), ids, x);
  }
}

=== FILE: fx_rates.dfy ===
/** The rate side of `FxRateContext`: the currency catalog, the cross-rate
    matrix derived from a single-base (USD) rate table, the fixed demo table
    used when the rate source fails, and the conversion lookup. */
module FxRates {
  import opened Wrappers
  import opened Seqs

  /** A currency code such as "USD". */
  type Code = string

  datatype Currency = Currency(code: Code, name: string, symbol: string, flag: Option<string>)

  /** "1 unit of `fromCurrency` buys `rate` units of `toCurrency`";
      `timestamp` is the fetch time in milliseconds. */
  datatype ExchangeRate = ExchangeRate(fromCurrency: Code, toCurrency: Code, rate: real, timestamp: int)

  /** The `rates` object of the rate source's payload: code to units per USD. */
  type BaseTable = map<Code, real>

  /** The implicit base currency of the rate source. */
  const Usd: Code := "USD"

  /** `currenciesList`: the ten supported currencies, in display order. */
  const CurrenciesList: seq<Currency> := [
    Currency("USD", "US Dollar", "$", Some("\U{1F1FA}\U{1F1F8}")),
    Currency("EUR", "Euro", "€", Some("\U{1F1EA}\U{1F1FA}")),
    Currency("GBP", "British Pound", "£", Some("\U{1F1EC}\U{1F1E7}")),
    Currency("JPY", "Japanese Yen", "¥", Some("\U{1F1EF}\U{1F1F5}")),
    Currency("CAD", "Canadian Dollar", "C$", Some("\U{1F1E8}\U{1F1E6}")),
    Currency("AUD", "Australian Dollar", "A$", Some("\U{1F1E6}\U{1F1FA}")),
    Currency("CHF", "Swiss Franc", "Fr", Some("\U{1F1E8}\U{1F1ED}")),
    Currency("CNY", "Chinese Yuan", "¥", Some("\U{1F1E8}\U{1F1F3}")),
    Currency("INR", "Indian Rupee", "₹", Some("\U{1F1EE}\U{1F1F3}")),
    Currency("MXN", "Mexican Peso", "$", Some("\U{1F1F2}\U{1F1FD}"))
  ]

  /** The codes of a currency list, in order. */
  function CodesOf(cs: seq<Currency>): seq<Code>
  {
    seq(|cs|, i requires 0 <= i < |cs| => cs[i].code)
  }

  /** The codes the rate builder iterates over. */
  function Catalog(): seq<Code>
  {
    CodesOf(CurrenciesList)
  }

  /** The ten catalog codes, in display order. */
  const CatalogCodes: seq<Code> := ["USD", "EUR", "GBP", "JPY", "CAD", "AUD", "CHF", "CNY", "INR", "MXN"]

  lemma CatalogFacts()
    ensures Catalog() == CatalogCodes
    ensures |Catalog()| == 10
    ensures NoDup(Catalog())
    ensures Usd in Catalog()
  {
    var c := Catalog();
    assert c[0] == "USD" && c[1] == "EUR" && c[2] == "GBP" && c[3] == "JPY" && c[4] == "CAD";
    assert c[5] == "AUD" && c[6] == "CHF" && c[7] == "CNY" && c[8] == "INR" && c[9] == "MXN";
    assert c == CatalogCodes;
    CatalogCodesDistinct();
  }

  lemma CatalogCodesDistinct()
    ensures NoDup(CatalogCodes)
  {
    var c := CatalogCodes;
    forall i, j | 0 <= i < j < |c| ensures c[i] != c[j] {
      assert c[i][0] != c[j][0] || c[i][1] != c[j][1] || c[i][2] != c[j][2];
    }
  }

  // ---------------------------------------------------------------------------
  // Cross-rate matrix (the success branch of `fetchRates`)
  // ---------------------------------------------------------------------------

  /** `if (data.rates[code])`: the entry exists and is truthy (nonzero). */
  predicate HasRate(base: BaseTable, c: Code)
  {
    c in base && base[c] != 0.0
  }

  /** Every non-USD code has a usable base rate, so that no derived entry
      is NaN or Infinity. */
  predicate Derivable(codes: seq<Code>, base: BaseTable)
  {
    forall c :: c in codes && c != Usd ==> HasRate(base, c)
  }

  /** The rate for `x -> y` implied by the common USD base. */
  function DerivedRate(base: BaseTable, x: Code, y: Code): real
    requires x != y
    requires x != Usd ==> HasRate(base, x)
    requires y != Usd ==> HasRate(base, y)
  {
    if x == Usd then base[y]
    else if y == Usd then 1.0 / base[x]
    else base[y] / base[x]
  }

  /** First loop: `USD -> code` for each non-USD code whose base rate is truthy. */
  function BaseRow(codes: seq<Code>, base: BaseTable, now: int): (r: seq<ExchangeRate>)
    ensures forall e :: e in r ==>
              && e.fromCurrency == Usd && e.toCurrency != Usd && e.toCurrency in codes
              && HasRate(base, e.toCurrency) && e.rate == base[e.toCurrency] && e.timestamp == now
    ensures forall c :: c in codes && c != Usd && HasRate(base, c) ==>
              ExchangeRate(Usd, c, base[c], now) in r
  {
    if codes == [] then []
    else
      var c := codes[0];
      var head := if c == Usd || !HasRate(base, c) then [] else [ExchangeRate(Usd, c, base[c], now)];
      assert forall d :: d in codes ==> d == c || d in codes[1..];
      head + BaseRow(codes[1..], base, now)
  }

  /** Inner loop of the second pass for one source currency `from`. */
  function CrossRow(from: Code, tos: seq<Code>, base: BaseTable, now: int): (r: seq<ExchangeRate>)
    requires from != Usd ==> HasRate(base, from)
    requires Derivable(tos, base)
    ensures forall e :: e in r ==>
              && e.fromCurrency == from && from != Usd && e.toCurrency != from && e.toCurrency in tos
              && e.rate == DerivedRate(base, from, e.toCurrency) && e.timestamp == now
  {
    if tos == [] then []
    else
      var to := tos[0];
      assert to in tos;
      var head :=
        if from == to then []
        else if from == Usd && to != Usd then []
        else if to == Usd then [ExchangeRate(from, to, 1.0 / base[from], now)]
        else [ExchangeRate(from, to, base[to] / base[from], now)];
      assert forall d :: d in tos ==> d == to || d in tos[1..];
      head + CrossRow(from, tos[1..], base, now)
  }

  /** Second pass: inverse rates (`X -> USD`) and cross rates (`X -> Y`). */
  function CrossRows(froms: seq<Code>, tos: seq<Code>, base: BaseTable, now: int): (r: seq<ExchangeRate>)
    requires Derivable(froms, base)
    requires Derivable(tos, base)
    ensures forall e :: e in r ==>
              && e.fromCurrency != Usd && e.fromCurrency != e.toCurrency
              && e.fromCurrency in froms && e.toCurrency in tos
              && e.rate == DerivedRate(base, e.fromCurrency, e.toCurrency) && e.timestamp == now
  {
    if froms == [] then []
    else
      assert forall d :: d in froms ==> d == froms[0] || d in froms[1..];
      CrossRow(froms[0], tos, base, now) + CrossRows(froms[1..], tos, base, now)
  }

  /** The whole list `fetchRates` stores on success. */
  function BuildMatrix(codes: seq<Code>, base: BaseTable, now: int): (r: seq<ExchangeRate>)
    requires Derivable(codes, base)
    ensures forall e :: e in r ==>
              && e.fromCurrency != e.toCurrency
              && (e.fromCurrency in codes || e.fromCurrency == Usd) && e.toCurrency in codes
              && e.rate == DerivedRate(base, e.fromCurrency, e.toCurrency) && e.timestamp == now
  {
    BaseRow(codes, base, now) + CrossRows(codes, codes, base, now)
  }

  /** Number of entries for the ordered pair `x -> y`. */
  function PairCount(m: seq<ExchangeRate>, x: Code, y: Code): nat
  {
    if m == [] then 0
    else (if m[0].fromCurrency == x && m[0].toCurrency == y then 1 else 0) + PairCount(m[1..], x, y)
  }

  lemma {:induction false} PairCountAppend(a: seq<ExchangeRate>, b: seq<ExchangeRate>, x: Code, y: Code)
    ensures PairCount(a + b, x, y) == PairCount(a, x, y) + PairCount(b, x, y)
  {
    if a == [] {
      assert a + b == b;
    } else {
      assert (a + b)[1..] == a[1..] + b;
      PairCountAppend(a[1..], b, x, y);
    }
  }

  lemma {:induction false} PairCountPositive(m: seq<ExchangeRate>, x: Code, y: Code)
    requires PairCount(m, x, y) > 0
    ensures exists e :: e in m && e.fromCurrency == x && e.toCurrency == y
  {
    if m[0].fromCurrency != x || m[0].toCurrency != y {
      PairCountPositive(m[1..], x, y);
      var e :| e in m[1..] && e.fromCurrency == x && e.toCurrency == y;
      assert e in m;
    }
  }

  lemma {:induction false} BaseRowPairCount(codes: seq<Code>, base: BaseTable, now: int, x: Code, y: Code)
    ensures PairCount(BaseRow(codes, base, now), x, y)
            == if x == Usd && y != Usd && HasRate(base, y) then Occ(codes, y) else 0
  {
    if codes != [] {
      var c := codes[0];
      var head := if c == Usd || !HasRate(base, c) then [] else [ExchangeRate(Usd, c, base[c], now)];
      assert BaseRow(codes, base, now) == head + BaseRow(codes[1..], base, now);
      PairCountAppend(head, BaseRow(codes[1..], base, now), x, y);
      BaseRowPairCount(codes[1..], base, now, x, y);
      if head != [] {
        assert PairCount(head, x, y) == (if x == Usd && y == c then 1 else 0) by {
          assert head[1..] == [];
        }
      }
    }
  }

  lemma {:induction false} CrossRowPairCount(from: Code, tos: seq<Code>, base: BaseTable, now: int, x: Code, y: Code)
    requires from != Usd ==> HasRate(base, from)
    requires Derivable(tos, base)
    ensures PairCount(CrossRow(from, tos, base, now), x, y)
            == if x == from && from != Usd && y != from then Occ(tos, y) else 0
  {
    if tos != [] {
      var to := tos[0];
      assert to in tos;
      assert to != Usd ==> HasRate(base, to);
      var head :=
        if from == to then []
        else if from == Usd && to != Usd then []
        else if to == Usd then [ExchangeRate(from, to, 1.0 / base[from], now)]
        else [ExchangeRate(from, to, base[to] / base[from], now)];
      assert Derivable(tos[1..], base) by {
        assert forall d :: d in tos[1..] ==> d in tos;
      }
      assert CrossRow(from, tos, base, now) == head + CrossRow(from, tos[1..], base, now);
      PairCountAppend(head, CrossRow(from, tos[1..], base, now), x, y);
      CrossRowPairCount(from, tos[1..], base, now, x, y);
      if head != [] {
        assert PairCount(head, x, y) == (if x == from && y == to then 1 else 0) by {
          assert head[1..] == [];
        }
      }
    }
  }

  lemma {:induction false} CrossRowsPairCount(froms: seq<Code>, tos: seq<Code>, base: BaseTable, now: int, x: Code, y: Code)
    requires Derivable(froms, base)
    requires Derivable(tos, base)
    ensures PairCount(CrossRows(froms, tos, base, now), x, y)
            == if x != Usd && x != y then Occ(froms, x) * Occ(tos, y) else 0
  {
    if froms != [] {
      assert Derivable(froms[1..], base) by {
        assert forall d :: d in froms[1..] ==> d in froms;
      }
      PairCountAppend(CrossRow(froms[0], tos, base, now), CrossRows(froms[1..], tos, base, now), x, y);
      CrossRowPairCount(froms[0], tos, base, now, x, y);
      CrossRowsPairCount(froms[1..], tos, base, now, x, y);
      if x != Usd && x != y {
        var k := if froms[0] == x then 1 else 0;
        assert Occ(froms, x) == k + Occ(froms[1..], x);
        calc {
          PairCount(CrossRows(froms, tos, base, now), x, y);
          k * Occ(tos, y) + Occ(froms[1..], x) * Occ(tos, y);
          (k + Occ(froms[1..], x)) * Occ(tos, y);
        }
      }
    }
  }

  /** With pairwise-distinct codes the matrix holds exactly one entry for each
      ordered pair of distinct catalog codes and none for any other pair. */
  lemma MatrixPairCount(codes: seq<Code>, base: BaseTable, now: int, x: Code, y: Code)
    requires Derivable(codes, base)
    requires NoDup(codes)
    requires Usd in codes
    ensures PairCount(BuildMatrix(codes, base, now), x, y)
            == if x != y && x in codes && y in codes then 1 else 0
  {
    PairCountAppend(BaseRow(codes, base, now), CrossRows(codes, codes, base, now), x, y);
    BaseRowPairCount(codes, base, now, x, y);
    CrossRowsPairCount(codes, codes, base, now, x, y);
    NoDupOcc(codes, x);
    NoDupOcc(codes, y);
  }

  lemma {:induction false} BaseRowLength(codes: seq<Code>, base: BaseTable, now: int)
    requires Derivable(codes, base)
    ensures |BaseRow(codes, base, now)| == |codes| - Occ(codes, Usd)
  {
    if codes != [] {
      assert Derivable(codes[1..], base) by {
        assert forall d :: d in codes[1..] ==> d in codes;
      }
      BaseRowLength(codes[1..], base, now);
    }
  }

  lemma {:induction false} CrossRowLength(from: Code, tos: seq<Code>, base: BaseTable, now: int)
    requires from != Usd ==> HasRate(base, from)
    requires Derivable(tos, base)
    ensures |CrossRow(from, tos, base, now)| == if from == Usd then 0 else |tos| - Occ(tos, from)
  {
    if tos != [] {
      assert Derivable(tos[1..], base) by {
        assert forall d :: d in tos[1..] ==> d in tos;
      }
      CrossRowLength(from, tos[1..], base, now);
    }
  }

  /** Length of the second pass: each non-USD source contributes `n` entries. */
  function RowsLength(froms: seq<Code>, n: int): int
  {
    if froms == [] then 0 else (if froms[0] == Usd then 0 else n) + RowsLength(froms[1..], n)
  }

  lemma {:induction false} RowsLengthProduct(froms: seq<Code>, n: int)
    ensures RowsLength(froms, n) == (|froms| - Occ(froms, Usd)) * n
  {
    if froms != [] {
      RowsLengthProduct(froms[1..], n);
      var m := |froms[1..]| - Occ(froms[1..], Usd);
      if froms[0] == Usd {
        assert |froms| - Occ(froms, Usd) == m;
      } else {
        assert |froms| - Occ(froms, Usd) == m + 1;
        assert (m + 1) * n == m * n + n;
      }
    }
  }

  lemma {:induction false} CrossRowsLength(froms: seq<Code>, tos: seq<Code>, base: BaseTable, now: int)
    requires Derivable(froms, base)
    requires Derivable(tos, base)
    requires NoDup(tos)
    requires forall f :: f in froms ==> f in tos
    ensures |CrossRows(froms, tos, base, now)| == RowsLength(froms, |tos| - 1)
  {
    if froms != [] {
      var f, rest := froms[0], froms[1..];
      assert forall d :: d in rest ==> d in froms;
      assert f in tos;
      CrossRowLength(f, tos, base, now);
      CrossRowsLength(rest, tos, base, now);
      NoDupOcc(tos, f);
    }
  }

  /** A catalog of n distinct codes including USD yields n * (n - 1) entries. */
  lemma MatrixLength(codes: seq<Code>, base: BaseTable, now: int)
    requires Derivable(codes, base)
    requires NoDup(codes)
    requires Usd in codes
    ensures |BuildMatrix(codes, base, now)| == |codes| * (|codes| - 1)
  {
    var n := |codes|;
    BaseRowLength(codes, base, now);
    CrossRowsLength(codes, codes, base, now);
    RowsLengthProduct(codes, n - 1);
    NoDupOcc(codes, Usd);
    assert |BuildMatrix(codes, base, now)| == (n - 1) + (n - 1) * (n - 1);
    SquareStep(n);
  }

  lemma SquareStep(n: int)
    ensures (n - 1) + (n - 1) * (n - 1) == n * (n - 1)
  {
  }

  /** For the ten-currency catalog with every base rate present: 90 entries,
      one per ordered pair of distinct codes. */
  lemma CatalogMatrix(base: BaseTable, now: int)
    requires Derivable(Catalog(), base)
    ensures |BuildMatrix(Catalog(), base, now)| == 90
    ensures forall x, y :: PairCount(BuildMatrix(Catalog(), base, now), x, y)
                           == if x != y && x in Catalog() && y in Catalog() then 1 else 0
  {
    CatalogFacts();
    MatrixLength(Catalog(), base, now);
    forall x, y ensures PairCount(BuildMatrix(Catalog(), base, now), x, y)
                        == if x != y && x in Catalog() && y in Catalog() then 1 else 0 {
      MatrixPairCount(Catalog(), base, now, x, y);
    }
  }

  /** Rates derived from a common base are exact reciprocals over the reals. */
  lemma DerivedRateReciprocal(base: BaseTable, x: Code, y: Code)
    requires x != y
    requires x != Usd ==> HasRate(base, x)
    requires y != Usd ==> HasRate(base, y)
    ensures DerivedRate(base, x, y) * DerivedRate(base, y, x) == 1.0
  {
    if x != Usd && y != Usd {
      var a, b := base[x], base[y];
      assert (b / a) * (a / b) == (b * a) / (a * b);
    }
  }

  /** Every entry of `m` is a non-self pair carrying the rate implied by `base`. */
  predicate FromBase(m: seq<ExchangeRate>, base: BaseTable)
  {
    forall e :: e in m ==>
      && e.fromCurrency != e.toCurrency
      && (e.fromCurrency != Usd ==> HasRate(base, e.fromCurrency))
      && (e.toCurrency != Usd ==> HasRate(base, e.toCurrency))
      && e.rate == DerivedRate(base, e.fromCurrency, e.toCurrency)
  }

  /** The matrix is derived from its base table. */
  lemma MatrixFromBase(codes: seq<Code>, base: BaseTable, now: int)
    requires Derivable(codes, base)
    ensures FromBase(BuildMatrix(codes, base, now), base)
  {
  }

  /** In a list derived from one base, rate(X -> Y) * rate(Y -> X) = 1 for
      every pair listed in both directions. */
  lemma FromBaseReciprocal(m: seq<ExchangeRate>, base: BaseTable, e1: ExchangeRate, e2: ExchangeRate)
    requires FromBase(m, base)
    requires e1 in m && e2 in m
    requires e1.fromCurrency == e2.toCurrency && e1.toCurrency == e2.fromCurrency
    ensures e1.rate * e2.rate == 1.0
  {
    var x, y := e1.fromCurrency, e1.toCurrency;
    DerivedPairReciprocal(base, x, y, e1.rate, e2.rate);
  }

  lemma DerivedPairReciprocal(base: BaseTable, x: Code, y: Code, r1: real, r2: real)
    requires x != y
    requires x != Usd ==> HasRate(base, x)
    requires y != Usd ==> HasRate(base, y)
    requires r1 == DerivedRate(base, x, y) && r2 == DerivedRate(base, y, x)
    ensures r1 * r2 == 1.0
  {
    DerivedRateReciprocal(base, x, y);
  }

  // ---------------------------------------------------------------------------
  // fetchRates: success replaces the list, failure installs the demo table
  // ---------------------------------------------------------------------------

  /** What the rate request produced: a network/parse failure, a body without
      `rates`, or the `rates` object. */
  datatype RatePayload = Unreachable | MissingRates | RateTable(rates: BaseTable)

  /** The provider state `fetchRates` leaves behind. */
  datatype RateSnapshot = RateSnapshot(currentRates: seq<ExchangeRate>, error: Option<string>, isLoading: bool)

  const FetchRatesError: string := "Failed to fetch exchange rates. Please try again later."

  /** The seven demo rates installed when the rate source fails. */
  function FallbackRates(now: int): seq<ExchangeRate>
  {
    [ ExchangeRate("USD", "EUR", 0.92, now),
      ExchangeRate("USD", "GBP", 0.79, now),
      ExchangeRate("USD", "JPY", 151.69, now),
      ExchangeRate("EUR", "USD", 1.09, now),
      ExchangeRate("EUR", "GBP", 0.86, now),
      ExchangeRate("GBP", "USD", 1.27, now),
      ExchangeRate("JPY", "USD", 0.0066, now) ]
  }

  /** No two entries of `m` share an ordered pair, and none is a self-pair. */
  predicate WellFormedRates(m: seq<ExchangeRate>)
  {
    && (forall i :: 0 <= i < |m| ==> m[i].fromCurrency != m[i].toCurrency)
    && (forall i, j :: 0 <= i < j < |m| ==>
          m[i].fromCurrency != m[j].fromCurrency || m[i].toCurrency != m[j].toCurrency)
  }

  lemma FallbackRatesFacts(now: int)
    ensures |FallbackRates(now)| == 7
    ensures WellFormedRates(FallbackRates(now))
  {
    var m := FallbackRates(now);
    forall i, j | 0 <= i < j < |m|
      ensures m[i].fromCurrency != m[j].fromCurrency || m[i].toCurrency != m[j].toCurrency
    {
      assert m[i].fromCurrency[0] != m[j].fromCurrency[0] || m[i].toCurrency[0] != m[j].toCurrency[0];
    }
  }

  /** `fetchRates` with the fetch replaced by its payload and the clock by `now`. */
  function FetchRates(payload: RatePayload, now: int): (r: RateSnapshot)
    requires payload.RateTable? ==> Derivable(Catalog(), payload.rates)
    ensures !r.isLoading
    ensures r.error.None? <==> payload.RateTable?
    ensures payload.RateTable? ==>
              |r.currentRates| == 90
              && forall x, y :: PairCount(r.currentRates, x, y)
                                 == if x != y && x in Catalog() && y in Catalog() then 1 else 0
    ensures payload.RateTable? ==>
              && r.currentRates == BuildMatrix(Catalog(), payload.rates, now)
              && FromBase(r.currentRates, payload.rates)
    ensures !payload.RateTable? ==>
              && |r.currentRates| == 7 && WellFormedRates(r.currentRates)
              && r.error == Some(FetchRatesError)
    ensures !payload.RateTable? ==> r.currentRates == FallbackRates(now)
  {
    match payload
    case RateTable(rates) =>
      CatalogMatrix(rates, now);
      MatrixFromBase(Catalog(), rates, now);
      RateSnapshot(BuildMatrix(Catalog(), rates, now), None, false)
    case _ =>
      FallbackRatesFacts(now);
      RateSnapshot(FallbackRates(now), Some(FetchRatesError), false)
  }

  // ---------------------------------------------------------------------------
  // Lookup and conversion
  // ---------------------------------------------------------------------------

  /** `rates.find(r => r.fromCurrency === from && r.toCurrency === to)?.rate`. */
  function FindRate(rates: seq<ExchangeRate>, from: Code, to: Code): (r: Option<real>)
    ensures r.None? <==> forall i :: 0 <= i < |rates| ==>
                          !(rates[i].fromCurrency == from && rates[i].toCurrency == to)
    ensures r.Some? ==> exists i :: 0 <= i < |rates|
                          && rates[i].fromCurrency == from && rates[i].toCurrency == to
                          && rates[i].rate == r.value
                          && forall j :: 0 <= j < i ==>
                               !(rates[j].fromCurrency == from && rates[j].toCurrency == to)
  {
    if rates == [] then None
    else if rates[0].fromCurrency == from && rates[0].toCurrency == to then Some(rates[0].rate)
    else
      var r := FindRate(rates[1..], from, to);
      if r.Some? then
        var i :| 0 <= i < |rates[1..]|
                 && rates[1..][i].fromCurrency == from && rates[1..][i].toCurrency == to
                 && rates[1..][i].rate == r.value
                 && forall j :: 0 <= j < i ==>
                      !(rates[1..][j].fromCurrency == from && rates[1..][j].toCurrency == to);
        assert rates[i + 1] == rates[1..][i];
        r
      else r
  }

  /** `convertAmount`: identity for equal codes, otherwise amount times the
      first matching rate, or null when there is none. */
  function ConvertAmount(rates: seq<ExchangeRate>, amount: real, from: Code, to: Code): (r: Option<real>)
    ensures from == to ==> r == Some(amount)
    ensures from != to ==>
              (r.None? <==> forall e :: e in rates ==> !(e.fromCurrency == from && e.toCurrency == to))
    ensures from != to && r.Some? ==>
              exists e :: e in rates && e.fromCurrency == from && e.toCurrency == to
                          && r.value == amount * e.rate
    ensures from != to ==> (r.Some? <==> FindRate(rates, from, to).Some?)
    ensures from != to && r.Some? ==> r.value == amount * FindRate(rates, from, to).value
  {
    if from == to then Some(amount)
    else
      match FindRate(rates, from, to)
      case None => None
      case Some(rate) => Some(amount * rate)
  }

  /** Every ordered pair of distinct codes has an entry in the matrix. */
  lemma MatrixHasPair(codes: seq<Code>, base: BaseTable, now: int, x: Code, y: Code)
    requires Derivable(codes, base)
    requires x in codes && y in codes && x != y
    ensures exists e :: e in BuildMatrix(codes, base, now) && e.fromCurrency == x && e.toCurrency == y
  {
    PairCountAppend(BaseRow(codes, base, now), CrossRows(codes, codes, base, now), x, y);
    if x == Usd {
      BaseRowPairCount(codes, base, now, x, y);
      assert PairCount(BaseRow(codes, base, now), x, y) > 0;
    } else {
      CrossRowsPairCount(codes, codes, base, now, x, y);
      ProductPositive(Occ(codes, x), Occ(codes, y));
      assert PairCount(CrossRows(codes, codes, base, now), x, y) > 0;
    }
    PairCountPositive(BuildMatrix(codes, base, now), x, y);
  }

  /** When some entry matches and every matching entry carries `rho`, the
      lookup finds `rho`. */
  lemma FindUniformRate(rates: seq<ExchangeRate>, x: Code, y: Code, rho: real)
    requires exists e :: e in rates && e.fromCurrency == x && e.toCurrency == y
    requires forall e :: e in rates && e.fromCurrency == x && e.toCurrency == y ==> e.rate == rho
    ensures FindRate(rates, x, y) == Some(rho)
  {
    var w :| w in rates && w.fromCurrency == x && w.toCurrency == y;
    var i :| 0 <= i < |rates| && rates[i] == w;
  }

  /** On a derived matrix the lookup for `x -> y` finds the rate implied by
      the common base, so a conversion is available and, by `ConvertFound`,
      equals `amount * DerivedRate(base, x, y)`. */
  lemma MatrixLookup(codes: seq<Code>, base: BaseTable, now: int, amount: real, x: Code, y: Code)
    requires Derivable(codes, base)
    requires x in codes && y in codes && x != y
    ensures FindRate(BuildMatrix(codes, base, now), x, y) == Some(DerivedRate(base, x, y))
    ensures ConvertAmount(BuildMatrix(codes, base, now), amount, x, y).Some?
  {
    MatrixHasPair(codes, base, now, x, y);
    MatrixPairRate(codes, base, now, x, y);
    FindUniformRate(BuildMatrix(codes, base, now), x, y, DerivedRate(base, x, y));
  }

  /** A found rate `rho` turns into the conversion `amount * rho`. */
  lemma ConvertFound(rates: seq<ExchangeRate>, amount: real, x: Code, y: Code, rho: real)
    requires x != y
    requires FindRate(rates, x, y) == Some(rho)
    ensures ConvertAmount(rates, amount, x, y).Some?
    ensures ConvertAmount(rates, amount, x, y).value == amount * rho
  {
  }

  /** Every matrix entry for `x -> y` carries the derived rate. */
  lemma MatrixPairRate(codes: seq<Code>, base: BaseTable, now: int, x: Code, y: Code)
    requires Derivable(codes, base)
    requires x in codes && y in codes && x != y
    ensures forall e :: e in BuildMatrix(codes, base, now) && e.fromCurrency == x && e.toCurrency == y
                        ==> e.rate == DerivedRate(base, x, y)
  {
    forall e | e in BuildMatrix(codes, base, now) && e.fromCurrency == x && e.toCurrency == y
      ensures e.rate == DerivedRate(base, x, y)
    {
      assert e.rate == DerivedRate(base, e.fromCurrency, e.toCurrency);
    }
  }

  lemma ProductPositive(a: nat, b: nat)
    requires a > 0 && b > 0
    ensures a * b > 0
  {
  }

  /** The demo table has no GBP -> EUR entry, so that conversion is unavailable. */
  lemma FallbackGbpToEurUnavailable(now: int, amount: real)
    ensures ConvertAmount(FallbackRates(now), amount, "GBP", "EUR").None?
  {
    var m := FallbackRates(now);
    forall e | e in m ensures !(e.fromCurrency == "GBP" && e.toCurrency == "EUR") {
      assert e.toCurrency != "EUR" || e.fromCurrency[0] != 'G';
    }
  }
}

=== FILE: pilot_tab.dfy ===
/** `PilotTab`: a stand-alone converter over a code-to-rate table. The
    amount is free text read with `parseFloat`, a missing or zero rate
    counts as 1, and a failed fetch installs a fixed demo table. */
module PilotTab {
  import opened Wrappers

  /** The `{ [code]: rate }` object returned by the rates API. */
  type RateTable = map<string, real>

  // ---------------------------------------------------------------------------
  // parseFloat
  // ---------------------------------------------------------------------------

  predicate IsDigit(c: char)
  {
    '0' <= c <= '9'
  }

  predicate AllDigits(s: string)
  {
    forall i :: 0 <= i < |s| ==> IsDigit(s[i])
  }

  predicate IsSpace(c: char)
  {
    c == ' ' || c == '\t' || c == '\n' || c == '\r'
  }

  /** Length of the leading run of decimal digits. */
  function DigitRun(s: string): (n: nat)
    ensures n <= |s|
    ensures AllDigits(s[..n])
    ensures n < |s| ==> !IsDigit(s[n])
  {
    if s != [] && IsDigit(s[0]) then
      var n := 1 + DigitRun(s[1..]);
      assert s[..n] == [s[0]] + s[1..][..n - 1];
      n
    else 0
  }

  /** The value of a string of decimal digits, most significant first. */
  function DigitsValue(d: string): nat
    requires AllDigits(d)
  {
    if d == [] then 0
    else DigitsValue(d[..|d| - 1]) * 10 + (d[|d| - 1] as int - '0' as int)
  }

  function Pow10(k: nat): (r: real)
    ensures r >= 1.0
  {
    if k == 0 then 1.0 else 10.0 * Pow10(k - 1)
  }

  /** `10^e` for a signed exponent. */
  function Scale(e: int): (r: real)
    ensures r > 0.0
  {
    if e >= 0 then Pow10(e) else 1.0 / Pow10(-e)
  }

  function TrimStart(s: string): (t: string)
    ensures |t| <= |s| && t == s[|s| - |t|..]
    ensures t != [] ==> !IsSpace(t[0])
  {
    if s != [] && IsSpace(s[0]) then TrimStart(s[1..]) else s
  }

  /** The text after an optional leading sign. */
  function Unsigned(t: string): string
  {
    if t != [] && (t[0] == '-' || t[0] == '+') then t[1..] else t
  }

  /** A number starts here: a digit, or a point followed by a digit. */
  predicate StartsNumber(u: string)
  {
    (u != [] && IsDigit(u[0])) || (|u| >= 2 && u[0] == '.' && IsDigit(u[1]))
  }

  /** The exponent of an `e`/`E` suffix with an optional sign and at least
      one digit; 0 when the text does not start with one. */
  function Exponent(s: string): int
  {
    if s != [] && (s[0] == 'e' || s[0] == 'E') then
      var ds := Unsigned(s[1..]);
      var n := DigitRun(ds);
      if n == 0 then 0
      else if s[1] == '-' then -(DigitsValue(ds[..n]) as int)
      else DigitsValue(ds[..n])
    else 0
  }

  /** `v * 10^e`, exactly `v` without an exponent. */
  function Scaled(v: real, e: int): (r: real)
    ensures e == 0 ==> r == v
  {
    if e == 0 then v else v * Scale(e)
  }

  /** A scanned number: its unsigned value and the text after it. */
  datatype Scan = Scan(value: real, rest: string)

  /** The value of the digits after the decimal point. */
  function Fraction(d: string): (r: real)
    requires AllDigits(d)
    ensures r >= 0.0
  {
    DigitsValue(d) as real / Pow10(|d|)
  }

  /** The longest unsigned decimal prefix: digits, then optionally a point
      and more digits, with at least one digit in all. */
  function ScanMantissa(u: string): (m: Option<Scan>)
    ensures m.Some? <==> StartsNumber(u)
    ensures m.Some? ==> m.value.value >= 0.0 && |m.value.rest| < |u|
  {
    var i := DigitRun(u);
    var hasDot := i < |u| && u[i] == '.';
    var f := if hasDot then DigitRun(u[i + 1..]) else 0;
    if i == 0 && f == 0 then None
    else if hasDot then Some(Scan(DigitsValue(u[..i]) as real + Fraction(u[i + 1..][..f]), u[i + 1 + f..]))
    else Some(Scan(DigitsValue(u[..i]) as real, u[i..]))
  }

  /** `parseFloat` on finite decimal text: leading white space, an optional
      sign, the longest decimal prefix and an optional exponent; anything
      after it is ignored. `None` is `NaN`. */
  function ParseDecimal(s: string): (r: Option<real>)
    ensures r.Some? <==> StartsNumber(Unsigned(TrimStart(s)))
  {
    var t := TrimStart(s);
    match ScanMantissa(Unsigned(t))
    case None => None
    case Some(m) =>
      var mag := Scaled(m.value, Exponent(m.rest));
      Some(if t != [] && t[0] == '-' then -mag else mag)
  }

  /** `parseFloat(amount) || 0`: `NaN` and zero both read as 0. */
  function ParsedAmount(text: string): (a: real)
    ensures ParseDecimal(text).None? ==> a == 0.0
    ensures ParseDecimal(text).Some? ==> a == ParseDecimal(text).value
  {
    ParseDecimal(text).GetOr(0.0)
  }

  /** Text that does not start a number reads as 0; the empty amount
      field is the first such case. */
  lemma UnparseableIsZero(text: string)
    requires !StartsNumber(Unsigned(TrimStart(text)))
    ensures ParsedAmount(text) == 0.0
  {
  }

  lemma EmptyIsZero()
    ensures ParsedAmount("") == 0.0
  {
  }

  // ---------------------------------------------------------------------------
  // Decimal text of a natural number, and the round trip
  // ---------------------------------------------------------------------------

  function DigitChar(d: nat): (c: char)
    requires d < 10
    ensures IsDigit(c) && c as int - '0' as int == d
  {
    ('0' as int + d) as char
  }

  /** The decimal digits of `n`, most significant first, without leading zeros. */
  function NatString(n: nat): (s: string)
    ensures s != [] && AllDigits(s)
  {
    if n < 10 then [DigitChar(n)] else NatString(n / 10) + [DigitChar(n % 10)]
  }

  lemma {:induction false} NatStringValue(n: nat)
    ensures DigitsValue(NatString(n)) == n
  {
    var s := NatString(n);
    if n >= 10 {
      NatStringValue(n / 10);
      assert s[..|s| - 1] == NatString(n / 10);
    }
  }

  /** A run of digits followed by something that does not continue the
      number scans as the whole value of the run. */
  lemma ScanDigits(s: string, tail: string)
    requires s != [] && AllDigits(s)
    requires tail == [] || (!IsDigit(tail[0]) && tail[0] != '.')
    ensures ScanMantissa(s + tail) == Some(Scan(DigitsValue(s) as real, tail))
  {
    var u := s + tail;
    DigitRunSplit(s, tail);
    assert u[..|s|] == s;
    assert u[|s|..] == tail;
  }

  /** Text without leading white space or sign parses to its scanned
      value when no exponent follows. */
  lemma ParseScanned(u: string, v: real, rest: string)
    requires u != [] && IsDigit(u[0])
    requires ScanMantissa(u) == Some(Scan(v, rest)) && Exponent(rest) == 0
    ensures ParseDecimal(u) == Some(v)
  {
    PlainStart(u);
  }

  /** Text starting with a digit has no white space or sign to strip. */
  lemma PlainStart(u: string)
    requires u != [] && IsDigit(u[0])
    ensures TrimStart(u) == u && Unsigned(u) == u
  {
  }

  /** With a minus sign in front, it parses to the negation. */
  lemma ParseScannedNegated(u: string, v: real, rest: string)
    requires u != [] && IsDigit(u[0])
    requires ScanMantissa(u) == Some(Scan(v, rest)) && Exponent(rest) == 0
    ensures ParseDecimal("-" + u) == Some(-v)
  {
    MinusStart(u);
  }

  lemma MinusStart(u: string)
    requires u != [] && IsDigit(u[0])
    ensures TrimStart("-" + u) == "-" + u && Unsigned("-" + u) == u
  {
    var m := "-" + u;
    assert m[1..] == u;
  }

  /** A run of digits alone scans as its value with nothing left over. */
  lemma ScanWhole(s: string)
    requires s != [] && AllDigits(s)
    ensures ScanMantissa(s) == Some(Scan(DigitsValue(s) as real, ""))
  {
    ScanDigits(s, "");
    assert s + "" == s;
  }

  /** Reading back the decimal text of a whole number gives the number. */
  lemma ParseNatString(n: nat)
    ensures ParseDecimal(NatString(n)) == Some(n as real)
  {
    var s := NatString(n);
    ScanNatString(n);
    ParseScanned(s, n as real, "");
  }

  /** With a leading minus sign it gives the negation. */
  lemma ParseNegatedNatString(n: nat)
    ensures ParseDecimal("-" + NatString(n)) == Some(-(n as real))
  {
    var s := NatString(n);
    ScanNatString(n);
    ParseScannedNegated(s, n as real, "");
  }

  lemma ScanNatString(n: nat)
    ensures ScanMantissa(NatString(n)) == Some(Scan(n as real, ""))
  {
    ScanWhole(NatString(n));
    NatStringValue(n);
  }

  /** Text not starting with `e` or `E` carries no exponent. */
  lemma NoExponent(rest: string)
    requires rest == [] || rest[0] !in "eE"
    ensures Exponent(rest) == 0
  {
  }

  /** Whatever follows the digits of a whole number, unless it continues
      the number, is ignored. */
  lemma ParseStopsAtNonDigit(n: nat, tail: string)
    requires tail != [] && !IsDigit(tail[0]) && tail[0] !in ".eE"
    ensures ParseDecimal(NatString(n) + tail) == Some(n as real)
  {
    var s := NatString(n);
    ScanDigits(s, tail);
    NatStringValue(n);
    NoExponent(tail);
    ParseScanned(s + tail, n as real, tail);
  }

  lemma ScanFractionExample()
    ensures ScanMantissa("2.5") == Some(Scan(2.5, ""))
  {
    var u := "2.5";
    assert u[1..] == ".5" && u[2..] == "5" && u[..1] == "2" && u[3..] == "";
    assert DigitRun("5") == 1;
    assert DigitRun(u) == 1;
    assert "5"[..1] == "5";
    assert DigitsValue("2") == 2 && DigitsValue("5") == 5;
    assert Fraction("5") == 0.5;
  }

  /** Digits after the point are read as a fraction. */
  lemma ParseFractionExample()
    ensures ParseDecimal("2.5") == Some(2.5)
  {
    ScanFractionExample();
    ParseScanned("2.5", 2.5, "");
  }

  lemma ScanExponentExample()
    ensures ScanMantissa("1e3") == Some(Scan(1.0, "e3"))
    ensures Exponent("e3") == 3
  {
    var u := "1e3";
    assert u[1..] == "e3" && u[..1] == "1";
    assert DigitRun("e3") == 0;
    assert DigitRun(u) == 1;
    assert "e3"[1..] == "3" && "3"[1..] == "" && "3"[..1] == "3";
    assert DigitRun("3") == 1;
    assert DigitsValue("3") == 3;
  }

  /** An exponent after the digits scales the value. */
  lemma ParseExponentExample()
    ensures ParseDecimal("1e3") == Some(1000.0)
  {
    ScanExponentExample();
    PlainStart("1e3");
    assert Scale(3) == 1000.0;
  }

  /** A point not followed by a digit is not a number. */
  lemma ParseLonePoint(u: string)
    requires u != [] && u[0] == '.' && (|u| == 1 || !IsDigit(u[1]))
    ensures ParseDecimal(u) == None
  {
    PointStart(u);
  }

  lemma PointStart(u: string)
    requires u != [] && u[0] == '.'
    ensures TrimStart(u) == u && Unsigned(u) == u
  {
  }

  lemma {:induction false} DigitRunSplit(s: string, tail: string)
    requires AllDigits(s)
    requires tail == [] || !IsDigit(tail[0])
    ensures DigitRun(s + tail) == |s|
  {
    if s != [] {
      assert (s + tail)[1..] == s[1..] + tail;
      DigitRunSplit(s[1..], tail);
    }
  }

  // ---------------------------------------------------------------------------
  // Conversion
  // ---------------------------------------------------------------------------

  /** `exchangeRates[code] || 1`: a missing or zero rate counts as 1. */
  function RateOr1(t: RateTable, code: string): (r: real)
    ensures r != 0.0
    ensures code in t && t[code] != 0.0 ==> r == t[code]
    ensures code !in t || t[code] == 0.0 ==> r == 1.0
  {
    if code in t && t[code] != 0.0 then t[code] else 1.0
  }

  /** `(numAmount / baseRate) * rate` for an already parsed amount. */
  function ConvertValue(a: real, t: RateTable, from: string, to: string): real
  {
    (a / RateOr1(t, from)) * RateOr1(t, to)
  }

  /** `getConvertedAmount` before rounding. */
  function Converted(amount: string, t: RateTable, from: string, to: string): real
  {
    ConvertValue(ParsedAmount(amount), t, from, to)
  }

  /** The conversion divides by the source rate and multiplies by the
      target rate, each taken as 1 when missing or zero. */
  lemma ConvertedValue(a: real, t: RateTable, from: string, to: string)
    ensures from in t && t[from] != 0.0 && to in t && t[to] != 0.0 ==>
              ConvertValue(a, t, from, to) == a / t[from] * t[to]
    ensures (from !in t || t[from] == 0.0) && (to !in t || t[to] == 0.0) ==>
              ConvertValue(a, t, from, to) == a
  {
  }

  lemma DivMul(a: real, r: real)
    requires r != 0.0
    ensures (a / r) * r == a
  {
  }

  /** Converting a currency into itself returns the amount. */
  lemma SameCurrencyIdentity(a: real, t: RateTable, code: string)
    ensures ConvertValue(a, t, code, code) == a
  {
    DivMul(a, RateOr1(t, code));
  }

  /** Text that is not a number converts to 0 whatever the rates. */
  lemma UnparseableConvertsToZero(amount: string, t: RateTable, from: string, to: string)
    requires !StartsNumber(Unsigned(TrimStart(amount)))
    ensures Converted(amount, t, from, to) == 0.0
  {
    UnparseableIsZero(amount);
  }

  /** The one-unit line, `exchangeRates[to] / (exchangeRates[from] || 1)`.
      Only the source rate is defaulted; `None` stands for the `NaN` shown
      when the target is missing. */
  function DisplayRate(t: RateTable, from: string, to: string): (r: Option<real>)
    ensures r.Some? <==> to in t
  {
    if to in t then Some(t[to] / RateOr1(t, from)) else None
  }

  lemma ParseOne()
    ensures ParsedAmount("1") == 1.0
  {
    ParseNatString(1);
    assert NatString(1) == "1";
  }

  /** With a present, nonzero target rate the one-unit line is the
      conversion of amount 1. */
  lemma DisplayMatchesUnitConversion(t: RateTable, from: string, to: string)
    requires to in t && t[to] != 0.0
    ensures DisplayRate(t, from, to) == Some(Converted("1", t, from, to))
  {
    ParseOne();
    var rf, rt := RateOr1(t, from), RateOr1(t, to);
    assert Converted("1", t, from, to) == (1.0 / rf) * rt;
    UnitQuotient(rf, rt);
  }

  lemma UnitQuotient(rf: real, rt: real)
    requires rf != 0.0
    ensures (1.0 / rf) * rt == rt / rf
  {
  }

  /** A zero target rate shows a one-unit rate of 0 while the conversion
      treats the target as 1. */
  lemma ZeroTargetDisagrees(t: RateTable, from: string, to: string)
    requires to in t && t[to] == 0.0
    ensures DisplayRate(t, from, to) == Some(0.0)
    ensures Converted("1", t, from, to) != 0.0
  {
    ParseOne();
  }

  /** The conversion line shows only for a nonempty amount while not loading. */
  predicate ShowsConversion(amount: string, loading: bool)
  {
    amount != "" && !loading
  }

  // ---------------------------------------------------------------------------
  // Fetching rates
  // ---------------------------------------------------------------------------

  /** The demo table installed when the fetch fails. */
  const MockRates: RateTable := map[
    "USD" := 1.0, "MXN" := 17.15, "EUR" := 0.85, "GBP" := 0.73,
    "JPY" := 110.50, "CAD" := 1.25, "AUD" := 1.35, "CHF" := 0.92]

  /** The eight codes of the two selectors. */
  const SelectorCodes: seq<string> := ["USD", "MXN", "EUR", "GBP", "JPY", "CAD", "AUD", "CHF"]

  const FetchError: string := "Failed to fetch exchange rates. Using mock data."

  /** The table, error text and loading flag after `fetchExchangeRates`
      settles. */
  datatype PilotRates = PilotRates(rates: RateTable, error: string, loading: bool)

  /** `fetchExchangeRates`. `response` is `Err` when the proxy request or
      the body fails, `Ok(None)` for a body without `rates`, and
      `Ok(Some(t))` for a body with a `rates` object (empty or not). */
  function FetchPilotRates(response: Outcome<Option<RateTable>>): (p: PilotRates)
    ensures !p.loading
    ensures response.Ok? && response.value.Some? ==>
              p.rates == response.value.value && p.error == ""
    ensures !(response.Ok? && response.value.Some?) ==>
              p.rates == MockRates && p.error == FetchError
  {
    match response
    case Ok(Some(t)) => PilotRates(t, "", false)
    case _ => PilotRates(MockRates, FetchError, false)
  }

  /** The demo table lists exactly the eight selector codes, with USD at 1
      and every rate positive, so the defaults never apply to it. */
  lemma MockRatesKeys()
    ensures forall c :: c in MockRates <==> c in SelectorCodes
  {
    assert MockRates.Keys == set c | c in SelectorCodes;
  }

  lemma MockRatesPositive()
    ensures MockRates["USD"] == 1.0
    ensures forall c :: c in MockRates ==> MockRates[c] > 0.0
  {
  }

  /** After a failed fetch, one dollar converts at the demo peso rate. */
  lemma FallbackDollarToPeso(response: Outcome<Option<RateTable>>)
    requires response.Err? || response == Ok(None)
    ensures Converted("1", FetchPilotRates(response).rates, "USD", "MXN") == 17.15
  {
    ParseOne();
  }

  /** The initial state: USD to MXN, amount "1", an empty table. Until rates
      arrive both rates default to 1 and the conversion shows 1. */
  lemma InitialConversion()
    ensures Converted("1", map[], "USD", "MXN") == 1.0
  {
    ParseOne();
  }
}

=== FILE: profile.dfy ===
/** `ProfilePage`: the preferred-currency list and its toggle, which never
    lets the list drop below two entries. */
module Profile {
  import opened Wrappers
  import opened Seqs

  /** The list used when the stored profile has none. */
  const DefaultPreferred: seq<string> := ["USD", "EUR", "GBP", "JPY"]

  /** `userProfile?.preferredCurrencies || [...]`. An array is truthy even
      when empty, so only a missing list is replaced by the default. */
  function InitialPreferred(stored: Option<seq<string>>): (l: seq<string>)
    ensures stored.None? ==> l == DefaultPreferred
    ensures stored.Some? ==> l == stored.value
  {
    stored.GetOr(DefaultPreferred)
  }

  /** The default list has four distinct codes. */
  lemma DefaultPreferredWellFormed()
    ensures NoDup(DefaultPreferred) && |DefaultPreferred| == 4
  {
  }

  /** The list and the "updated" flag of the page. */
  datatype PreferredState = PreferredState(preferred: seq<string>, currenciesUpdated: bool)

  /** `preferredCurrencies.filter(c => c !== code)`. */
  function Without(l: seq<string>, code: string): seq<string>
  {
    Filter(l, x => x != code)
  }

  /** `toggleCurrency`: remove a listed code when more than two are listed,
      append an unlisted one; either way mark the list as updated. */
  function ToggleCurrency(s: PreferredState, code: string): (t: PreferredState)
    ensures t.currenciesUpdated
    ensures code !in s.preferred ==> t.preferred == s.preferred + [code]
    ensures code in s.preferred && |s.preferred| <= 2 ==> t.preferred == s.preferred
    ensures code in s.preferred && |s.preferred| > 2 ==> code !in t.preferred
    ensures forall x :: x != code ==> (x in t.preferred <==> x in s.preferred)
  {
    if code in s.preferred then
      if |s.preferred| > 2 then PreferredState(Without(s.preferred, code), true)
      else s.(currenciesUpdated := true)
    else PreferredState(s.preferred + [code], true)
  }

  /** Removing a code that is not there changes nothing. */
  lemma {:induction false} WithoutAbsent(l: seq<string>, code: string)
    requires code !in l
    ensures Without(l, code) == l
  {
    if l != [] {
      WithoutAbsent(l[1..], code);
    }
  }

  /** Removal drops exactly the occurrences of the code. */
  lemma {:induction false} WithoutLength(l: seq<string>, code: string)
    ensures |Without(l, code)| == |l| - Occ(l, code)
  {
    if l != [] {
      WithoutLength(l[1..], code);
    }
  }

  lemma NoDupCons(a: string, s: seq<string>)
    requires a !in s && NoDup(s)
    ensures NoDup([a] + s)
  {
    var r := [a] + s;
    forall i, j | 0 <= i < j < |r| ensures r[i] != r[j] {
      assert r[j] == s[j - 1];
      if i > 0 {
        assert r[i] == s[i - 1];
      }
    }
  }

  /** Removal keeps the list free of duplicates. */
  lemma {:induction false} WithoutNoDup(l: seq<string>, code: string)
    requires NoDup(l)
    ensures NoDup(Without(l, code))
  {
    if l != [] {
      assert NoDup(l[1..]);
      WithoutNoDup(l[1..], code);
      if l[0] != code {
        assert l[0] !in l[1..];
        NoDupCons(l[0], Without(l[1..], code));
      }
    }
  }

  /** Removal keeps the other codes in their order. */
  lemma WithoutKeepsOrder(l: seq<string>, code: string)
    ensures IsSubsequence(Without(l, code), l)
  {
    FilterIsSubsequence(l, x => x != code);
  }

  lemma AppendNoDup(l: seq<string>, code: string)
    requires NoDup(l) && code !in l
    ensures NoDup(l + [code])
  {
    var r := l + [code];
    forall i, j | 0 <= i < j < |r| ensures r[i] != r[j] {
      assert r[i] == l[i];
      if j < |l| {
        assert r[j] == l[j];
      }
    }
  }

  /** A duplicate-free list of at least two codes stays so under any toggle. */
  lemma ToggleKeepsInvariant(s: PreferredState, code: string)
    requires NoDup(s.preferred) && |s.preferred| >= 2
    ensures NoDup(ToggleCurrency(s, code).preferred)
    ensures |ToggleCurrency(s, code).preferred| >= 2
  {
    var l := s.preferred;
    if code in l {
      if |l| > 2 {
        WithoutNoDup(l, code);
        WithoutLength(l, code);
        NoDupOcc(l, code);
      }
    } else {
      AppendNoDup(l, code);
    }
  }

  /** Removing a listed code from a duplicate-free list shortens it by one
      and keeps the others in order. */
  lemma ToggleRemovesOne(s: PreferredState, code: string)
    requires NoDup(s.preferred) && code in s.preferred && |s.preferred| > 2
    ensures |ToggleCurrency(s, code).preferred| == |s.preferred| - 1
    ensures IsSubsequence(ToggleCurrency(s, code).preferred, s.preferred)
  {
    WithoutLength(s.preferred, code);
    NoDupOcc(s.preferred, code);
    WithoutKeepsOrder(s.preferred, code);
  }

  /** Adding an unlisted code and toggling it again restores a list of at
      least two codes. */
  lemma ToggleTwiceRestores(s: PreferredState, code: string)
    requires code !in s.preferred && |s.preferred| >= 2
    ensures ToggleCurrency(ToggleCurrency(s, code), code).preferred == s.preferred
  {
    var l := s.preferred;
    FilterAppend(l, [code], x => x != code);
    WithoutAbsent(l, code);
    assert Filter([code], x => x != code) == [];
  }

  /** With a single code, adding a second one and toggling it again keeps
      both: the two-entry minimum blocks the removal. */
  lemma ToggleTwiceShortList(s: PreferredState, code: string)
    requires |s.preferred| == 1 && code !in s.preferred
    ensures ToggleCurrency(ToggleCurrency(s, code), code).preferred == s.preferred + [code]
  {
  }
}

=== FILE: rate_lock_details.dfy ===
/** `RateLockDetails`: the detail card of one lock. Expiry is recomputed
    from the clock, takes precedence over "used", and guards the
    "Mark as Used" action; the QR code carries a fixed subset of fields. */
module RateLockDetails {
  import opened Wrappers
  import opened RateLocks
  import opened RateLockPage

  /** `timeLeft <= 0 || status === 'expired'`. */
  predicate IsExpired(l: RateLock, now: int)
  {
    l.expiresAt - now <= 0 || l.status == Expired
  }

  predicate IsUsed(l: RateLock)
  {
    l.status == Used
  }

  /** The badge text: expired first, then used, else active. */
  function StatusText(l: RateLock, now: int): (t: string)
    ensures t in {"Expired", "Used", "Active"}
    ensures t == "Expired" <==> IsExpired(l, now)
    ensures t == "Used" <==> !IsExpired(l, now) && IsUsed(l)
    ensures t == "Active" <==> !IsExpired(l, now) && !IsUsed(l)
  {
    if IsExpired(l, now) then "Expired"
    else if IsUsed(l) then "Used"
    else "Active"
  }

  /** The card agrees with the history tab's group for active and expired
      records, but a used record past its expiry reads "Expired" although the
      history tab lists it under "used". */
  lemma StatusTextAgreesWithGroups(locks: seq<RateLock>, l: RateLock, now: int)
    requires l in locks
    ensures l in ActiveRates(locks, now) ==> StatusText(l, now) == "Active"
    ensures l in ExpiredRates(locks, now) ==> StatusText(l, now) == "Expired"
    ensures l in UsedRates(locks) ==>
              StatusText(l, now) == (if l.expiresAt <= now then "Expired" else "Used")
  {
  }

  /** The countdown line: only for a lock neither expired nor used. */
  predicate ShowsCountdown(l: RateLock, now: int)
  {
    !IsExpired(l, now) && !IsUsed(l)
  }

  /** The "Mark as Used" button: as the countdown, and only with a callback. */
  predicate ShowsMarkButton(l: RateLock, now: int, hasCallback: bool)
  {
    !IsExpired(l, now) && !IsUsed(l) && hasCallback
  }

  /** Whenever the countdown shows, its hours are nonnegative and its minutes
      lie in 0..59. */
  lemma ShownCountdownInRange(l: RateLock, now: int)
    requires ShowsCountdown(l, now)
    ensures CountdownOf(l.expiresAt - now).hours >= 0
    ensures 0 <= CountdownOf(l.expiresAt - now).minutes < 60
  {
  }

  // ---------------------------------------------------------------------------
  // handleMarkAsUsed
  // ---------------------------------------------------------------------------

  /** The id passed to `onMarkAsUsed`, if it was called, and the processing
      flag once the handler has finished. */
  datatype MarkAttempt = MarkAttempt(called: Option<string>, processing: bool)

  /** `handleMarkAsUsed`. `callback` is `None` when no `onMarkAsUsed` was
      given, and otherwise the outcome the callback settles with. */
  function HandleMarkAsUsed(l: RateLock, now: int, callback: Option<Completion>): (r: MarkAttempt)
    ensures r.called.Some? <==>
              callback.Some? && Truthy(l.id) && !IsUsed(l) && !IsExpired(l, now)
    ensures r.called.Some? ==> r.called == l.id
    ensures !r.processing
  {
    if callback.Some? && Truthy(l.id) && !IsUsed(l) && !IsExpired(l, now) then
      match callback.value
      case Done => MarkAttempt(l.id, false)
      case Failed(_) => MarkAttempt(l.id, false)
    else MarkAttempt(None, false)
  }

  /** A rejected callback is swallowed: the handler ends the same way as on success. */
  lemma MarkFailureSwallowed(l: RateLock, now: int, reason: string)
    ensures HandleMarkAsUsed(l, now, Some(Failed(reason))) == HandleMarkAsUsed(l, now, Some(Done))
  {
  }

  /** Clicking a shown button marks the lock whenever it has an id; a lock
      without an id shows the button but the click does nothing. */
  lemma ButtonClick(l: RateLock, now: int, outcome: Completion)
    requires ShowsMarkButton(l, now, true)
    ensures Truthy(l.id) ==> HandleMarkAsUsed(l, now, Some(outcome)).called == l.id
    ensures !Truthy(l.id) ==> HandleMarkAsUsed(l, now, Some(outcome)).called.None?
  {
  }

  /** On the rate-lock page the callback is `markRateLockAsUsed`: a click on
      a fresh, saved lock marks every record with its id in the provider list. */
  lemma MarkFromDetails(locks: seq<RateLock>, l: RateLock, now: int, write: Completion)
    requires ShowsMarkButton(l, now, true) && Truthy(l.id)
    ensures var a := HandleMarkAsUsed(l, now, Some(write));
            var m := MarkRateLockAsUsed(locks, a.called.value, write);
            write.Done? ==> forall i :: 0 <= i < |locks| && locks[i].id == l.id ==> m.locks[i].status == Used
  {
  }

  // ---------------------------------------------------------------------------
  // QR payload
  // ---------------------------------------------------------------------------

  /** The object serialised into the QR code. */
  datatype QrPayload = QrPayload(
    reference: string,
    fromCurrency: string,
    toCurrency: string,
    fromAmount: real,
    toAmount: real,
    rate: real,
    expiresAt: int)

  function QrPayloadOf(l: RateLock): (q: QrPayload)
    ensures q.reference == l.reference
    ensures q.fromCurrency == l.fromCurrency && q.toCurrency == l.toCurrency
    ensures q.fromAmount == l.fromAmount && q.toAmount == l.toAmount && q.rate == l.rate
    ensures q.expiresAt == l.expiresAt
  {
    QrPayload(l.reference, l.fromCurrency, l.toCurrency, l.fromAmount, l.toAmount, l.rate, l.expiresAt)
  }

  /** The payload omits `id`, `userId`, `status` and `createdAt`: records
      differing only there encode alike. */
  lemma QrOmitsBookkeeping(l: RateLock, id: Option<string>, userId: string, status: Status, createdAt: int)
    ensures QrPayloadOf(l.(id := id, userId := userId, status := status, createdAt := createdAt))
            == QrPayloadOf(l)
  {
  }

  /** The payload determines the seven fields it carries. */
  lemma QrPayloadInjective(a: RateLock, b: RateLock)
    requires QrPayloadOf(a) == QrPayloadOf(b)
    ensures a.(id := b.id, userId := b.userId, status := b.status, createdAt := b.createdAt) == b
  {
  }

  /** The QR code of a newly created lock states the converted amount and an
      expiry 24 hours after creation; marking it used does not change it. */
  lemma QrOfCreatedLock(uid: string, locks: seq<RateLock>, from: string, to: string,
                        fromAmount: real, rate: real, now: int, reference: string, docId: string)
    ensures var l := CreateRateLock(Some(uid), locks, from, to, fromAmount, rate, now, reference, Ok(docId)).lock.value;
            && QrPayloadOf(l).toAmount == QrPayloadOf(l).fromAmount * QrPayloadOf(l).rate
            && QrPayloadOf(l).expiresAt == now + LockDurationMs
            && QrPayloadOf(l.(status := Used)) == QrPayloadOf(l)
  {
  }
}

=== FILE: rate_lock_page.dfy ===
/** `RateLockPage`: the clock-derived active/expired/used groups of the
    history tab, the hours/minutes countdown, and the tab/selection state
    driven by creating and selecting locks. */
module RateLockPage {
  import opened Wrappers
  import opened Seqs
  import opened RateLocks

  // ---------------------------------------------------------------------------
  // The three groups of the history tab
  // ---------------------------------------------------------------------------

  /** Stored as active and not yet past its expiry. */
  predicate IsActiveAt(l: RateLock, now: int)
  {
    l.status == Active && l.expiresAt > now
  }

  /** Stored as active but past its expiry. */
  predicate IsExpiredAt(l: RateLock, now: int)
  {
    l.status == Active && l.expiresAt <= now
  }

  predicate IsUsedLock(l: RateLock)
  {
    l.status == Used
  }

  function ActiveRates(locks: seq<RateLock>, now: int): seq<RateLock>
  {
    Filter(locks, l => IsActiveAt(l, now))
  }

  function ExpiredRates(locks: seq<RateLock>, now: int): seq<RateLock>
  {
    Filter(locks, l => IsExpiredAt(l, now))
  }

  function UsedRates(locks: seq<RateLock>): seq<RateLock>
  {
    Filter(locks, IsUsedLock)
  }

  /** Records whose stored status is "expired", which no group shows. */
  function StoredExpired(locks: seq<RateLock>): seq<RateLock>
  {
    Filter(locks, (l: RateLock) => l.status == Expired)
  }

  /** The three groups and the stored-expired records split the list: every
      record lands in exactly one of the four. */
  lemma {:induction false} GroupsPartition(locks: seq<RateLock>, now: int)
    ensures multiset(ActiveRates(locks, now)) + multiset(ExpiredRates(locks, now))
            + multiset(UsedRates(locks)) + multiset(StoredExpired(locks))
            == multiset(locks)
  {
    if locks != [] {
      var t := locks[1..];
      GroupsPartition(t, now);
      GroupsUnfold(locks, now);
      PartitionStep(locks, now, ActiveRates(locks, now), ExpiredRates(locks, now), UsedRates(locks),
                    StoredExpired(locks), ActiveRates(t, now), ExpiredRates(t, now), UsedRates(t),
                    StoredExpired(t));
    }
  }

  /** Each group of a non-empty list is the first record, if it belongs,
      followed by the group of the rest. */
  lemma GroupsUnfold(locks: seq<RateLock>, now: int)
    requires locks != []
    ensures var h, t := locks[0], locks[1..];
            && ActiveRates(locks, now) == (if IsActiveAt(h, now) then [h] else []) + ActiveRates(t, now)
            && ExpiredRates(locks, now) == (if IsExpiredAt(h, now) then [h] else []) + ExpiredRates(t, now)
            && UsedRates(locks) == (if IsUsedLock(h) then [h] else []) + UsedRates(t)
            && StoredExpired(locks) == (if h.status == Expired then [h] else []) + StoredExpired(t)
  {
  }

  /** One record added in front of a split list lands in exactly one part. */
  lemma PartitionStep(locks: seq<RateLock>, now: int,
                      act: seq<RateLock>, exp: seq<RateLock>, used: seq<RateLock>, stored: seq<RateLock>,
                      a: seq<RateLock>, e: seq<RateLock>, u: seq<RateLock>, x: seq<RateLock>)
    requires locks != []
    requires act == (if IsActiveAt(locks[0], now) then [locks[0]] else []) + a
    requires exp == (if IsExpiredAt(locks[0], now) then [locks[0]] else []) + e
    requires used == (if IsUsedLock(locks[0]) then [locks[0]] else []) + u
    requires stored == (if locks[0].status == Expired then [locks[0]] else []) + x
    requires multiset(a) + multiset(e) + multiset(u) + multiset(x) == multiset(locks[1..])
    ensures multiset(act) + multiset(exp) + multiset(used) + multiset(stored) == multiset(locks)
  {
    assert locks == [locks[0]] + locks[1..];
  }

  /** No record is in two groups, a record stored as "expired" is in none,
      and each group keeps the list order. */
  lemma GroupsDisjoint(locks: seq<RateLock>, now: int)
    ensures forall l :: l in ActiveRates(locks, now) ==> l !in ExpiredRates(locks, now) && l !in UsedRates(locks)
    ensures forall l :: l in ExpiredRates(locks, now) ==> l !in UsedRates(locks)
    ensures forall l :: l in StoredExpired(locks) ==>
              l !in ActiveRates(locks, now) && l !in ExpiredRates(locks, now) && l !in UsedRates(locks)
    ensures IsSubsequence(ActiveRates(locks, now), locks)
    ensures IsSubsequence(ExpiredRates(locks, now), locks)
    ensures IsSubsequence(UsedRates(locks), locks)
  {
    FilterIsSubsequence(locks, l => IsActiveAt(l, now));
    FilterIsSubsequence(locks, l => IsExpiredAt(l, now));
    FilterIsSubsequence(locks, IsUsedLock);
  }

  /** Each record with stored status active or used is in exactly one group. */
  lemma ExactlyOneGroup(locks: seq<RateLock>, now: int, l: RateLock)
    requires l in locks && l.status != Expired
    ensures (if l in ActiveRates(locks, now) then 1 else 0)
            + (if l in ExpiredRates(locks, now) then 1 else 0)
            + (if l in UsedRates(locks) then 1 else 0) == 1
  {
  }

  /** Expiry is permanent: a record expired at `t` is expired, and not
      active, at every later time. */
  lemma ExpiryIsPermanent(locks: seq<RateLock>, l: RateLock, t: int, t': int)
    requires t <= t'
    requires l in ExpiredRates(locks, t)
    ensures l in ExpiredRates(locks, t')
    ensures l !in ActiveRates(locks, t')
  {
  }

  /** A freshly created lock is active for exactly 24 hours and expired from
      then on. */
  lemma CreatedLockLifecycle(user: Option<string>, locks: seq<RateLock>, from: string, to: string,
                             fromAmount: real, rate: real, now: int, reference: string,
                             write: Outcome<string>, t: int)
    requires CreateRateLock(user, locks, from, to, fromAmount, rate, now, reference, write).lock.Ok?
    ensures var l := CreateRateLock(user, locks, from, to, fromAmount, rate, now, reference, write).lock.value;
            && (IsActiveAt(l, t) <==> t < now + LockDurationMs)
            && (IsExpiredAt(l, t) <==> t >= now + LockDurationMs)
  {
  }

  // ---------------------------------------------------------------------------
  // Countdown
  // ---------------------------------------------------------------------------

  /** JavaScript's `a % b` for a positive `b`: the remainder takes the sign
      of `a` (Dafny's `%` is never negative). */
  function JsRem(a: int, b: int): (r: int)
    requires b > 0
    ensures a >= 0 ==> 0 <= r < b
    ensures a < 0 ==> -b < r <= 0
  {
    if a >= 0 then a % b else -((-a) % b)
  }

  /** The truncated remainder is odd in its first argument. */
  lemma JsRemOdd(a: int, b: int)
    requires b > 0
    ensures JsRem(-a, b) == -JsRem(a, b)
  {
  }

  datatype Countdown = Countdown(hours: int, minutes: int)

  /** `hoursLeft`/`minutesLeft` for `timeLeft` milliseconds. `Math.floor(x / y)`
      with a positive `y` is Dafny's `/`. */
  function CountdownOf(timeLeft: int): (c: Countdown)
    ensures timeLeft > 0 ==> c.hours >= 0 && 0 <= c.minutes < 60
    ensures timeLeft > 0 ==> c.hours * 60 + c.minutes == timeLeft / MinuteMs
  {
    var c := Countdown(timeLeft / HourMs, JsRem(timeLeft, HourMs) / MinuteMs);
    if timeLeft > 0 then
      CountdownSplit(timeLeft);
      c
    else c
  }

  lemma CountdownSplit(d: int)
    requires d > 0
    ensures (d / HourMs) * 60 + (d % HourMs) / MinuteMs == d / MinuteMs
  {
    var q, r := d / HourMs, d % HourMs;
    var m, s := r / MinuteMs, r % MinuteMs;
    assert d == q * HourMs + r;
    assert r == m * MinuteMs + s;
    assert d == (q * 60 + m) * MinuteMs + s;
  }

  /** The countdown of every lock in the active group is nonnegative, and
      at most 24h 0m for a lock that expires at most 24 hours ahead. */
  lemma ActiveCountdown(locks: seq<RateLock>, now: int, l: RateLock)
    requires l in ActiveRates(locks, now)
    requires l.expiresAt <= now + LockDurationMs
    ensures CountdownOf(l.expiresAt - now).hours >= 0
    ensures 0 <= CountdownOf(l.expiresAt - now).minutes < 60
    ensures CountdownOf(l.expiresAt - now).hours * 60 + CountdownOf(l.expiresAt - now).minutes <= 24 * 60
  {
    var d := l.expiresAt - now;
    assert d / MinuteMs <= 24 * 60;
  }

  // ---------------------------------------------------------------------------
  // Tabs, selection and notifications
  // ---------------------------------------------------------------------------

  datatype Tab = CreateTab | HistoryTab | ViewTab

  datatype Notice = Success(message: string) | Failure(message: string)

  datatype PageState = PageState(tab: Tab, selected: Option<RateLock>, notification: Option<Notice>)

  const LockedNotice: string := "Rate locked successfully for 24 hours!"
  const LockFailedNotice: string := "Failed to lock rate. Please try again."

  /** JavaScript truthiness of the `id` query parameter: absent and empty are falsy. */
  predicate Truthy(s: Option<string>)
  {
    s.Some? && s.value != ""
  }

  /** The state on first render for query parameter `rateId`. */
  function InitialPage(rateId: Option<string>): (p: PageState)
    ensures p.tab == ViewTab <==> Truthy(rateId)
    ensures p.tab != ViewTab ==> p.tab == CreateTab
    ensures p.selected.None? && p.notification.None?
  {
    PageState(if Truthy(rateId) then ViewTab else CreateTab, None, None)
  }

  /** `locks.find(rate => rate.id === id)`. */
  function FindLock(locks: seq<RateLock>, id: string): (r: Option<RateLock>)
    ensures r.None? <==> forall l :: l in locks ==> l.id != Some(id)
    ensures r.Some? ==> exists i :: 0 <= i < |locks| && locks[i] == r.value && r.value.id == Some(id)
                          && forall j :: 0 <= j < i ==> locks[j].id != Some(id)
  {
    if locks == [] then None
    else if locks[0].id == Some(id) then Some(locks[0])
    else
      var r := FindLock(locks[1..], id);
      assert forall l :: l in locks ==> l == locks[0] || l in locks[1..];
      if r.Some? then
        var i :| 0 <= i < |locks[1..]| && locks[1..][i] == r.value && r.value.id == Some(id)
                 && forall j :: 0 <= j < i ==> locks[1..][j].id != Some(id);
        assert locks[i + 1] == locks[1..][i];
        r
      else r
  }

  /** The effect selecting the lock named in the query once the list is loaded. */
  function SelectFromQuery(p: PageState, rateId: Option<string>, locks: seq<RateLock>): (q: PageState)
    ensures !Truthy(rateId) ==> q == p
    ensures Truthy(rateId) && (forall l :: l in locks ==> l.id != rateId) ==> q == p
    ensures Truthy(rateId) && (exists l :: l in locks && l.id == rateId) ==>
              && q.tab == ViewTab && q.notification == p.notification
              && q.selected.Some? && q.selected.value in locks && q.selected.value.id == rateId
  {
    if Truthy(rateId) then
      match FindLock(locks, rateId.value)
      case Some(l) => p.(selected := Some(l), tab := ViewTab)
      case None => p
    else p
  }

  /** `handleLockRate`, given what `createRateLock` resolved or rejected with. */
  function HandleLockRate(p: PageState, created: Outcome<RateLock>): (q: PageState)
    ensures created.Ok? ==>
              q.tab == ViewTab && q.selected == Some(created.value)
              && q.notification == Some(Success(LockedNotice))
    ensures created.Err? ==>
              q.tab == p.tab && q.selected == p.selected
              && q.notification == Some(Failure(LockFailedNotice))
  {
    match created
    case Ok(l) => PageState(ViewTab, Some(l), Some(Success(LockedNotice)))
    case Err(_) => p.(notification := Some(Failure(LockFailedNotice)))
  }

  /** `handleSelectRate`: a click on a card of any group. */
  function HandleSelectRate(p: PageState, l: RateLock): (q: PageState)
    ensures q.tab == ViewTab && q.selected == Some(l) && q.notification == p.notification
  {
    p.(selected := Some(l), tab := ViewTab)
  }

  /** The "Create Lock" tab button clears the selection. */
  function ClickCreate(p: PageState): (q: PageState)
    ensures q.tab == CreateTab && q.selected.None? && q.notification == p.notification
  {
    p.(tab := CreateTab, selected := None)
  }

  /** The "Lock History" tab button keeps the selection. */
  function ClickHistory(p: PageState): (q: PageState)
    ensures q.tab == HistoryTab && q.selected == p.selected && q.notification == p.notification
  {
    p.(tab := HistoryTab)
  }

  /** The "View Lock" tab button exists only while a lock is selected. */
  predicate ViewButtonShown(p: PageState)
  {
    p.selected.Some?
  }

  function ClickView(p: PageState): (q: PageState)
    ensures ViewButtonShown(p) ==> q.tab == ViewTab && q.selected == p.selected
    ensures !ViewButtonShown(p) ==> q == p
  {
    if ViewButtonShown(p) then p.(tab := ViewTab) else p
  }

  /** The lock details render only on the view tab with a lock selected. */
  predicate ShowsDetails(p: PageState)
  {
    p.tab == ViewTab && p.selected.Some?
  }

  /** Creating a lock from the page shows the new record, which is the one
      appended to the provider's list, unless the query effect re-selects a
      lock: it runs again on the new list, so this holds when the query id is
      falsy or names neither a stored lock nor the new document. */
  lemma LockThenView(p: PageState, rateId: Option<string>, uid: string, locks: seq<RateLock>,
                     from: string, to: string, fromAmount: real, rate: real, now: int,
                     reference: string, docId: string)
    requires Truthy(rateId) ==> rateId != Some(docId) && forall l :: l in locks ==> l.id != rateId
    ensures var c := CreateRateLock(Some(uid), locks, from, to, fromAmount, rate, now, reference, Ok(docId));
            var q := SelectFromQuery(HandleLockRate(p, c.lock), rateId, c.locks);
            && ShowsDetails(q)
            && q.selected == Some(c.locks[|c.locks| - 1])
            && q.selected.value.status == Active
  {
    var c := CreateRateLock(Some(uid), locks, from, to, fromAmount, rate, now, reference, Ok(docId));
    assert c.locks == locks + [c.lock.value];
    assert c.locks[|c.locks| - 1] == c.lock.value;
  }

  /** With a query id naming a stored lock, creating a lock does not show
      the new record: the query effect re-selects the first stored lock with
      that id once the list grows. */
  lemma QueryReselectsAfterCreate(p: PageState, rateId: Option<string>, uid: string, locks: seq<RateLock>,
                                  from: string, to: string, fromAmount: real, rate: real, now: int,
                                  reference: string, docId: string)
    requires Truthy(rateId) && exists l :: l in locks && l.id == rateId
    ensures var c := CreateRateLock(Some(uid), locks, from, to, fromAmount, rate, now, reference, Ok(docId));
            var q := SelectFromQuery(HandleLockRate(p, c.lock), rateId, c.locks);
            && q.tab == ViewTab
            && q.selected == FindLock(locks, rateId.value)
            && q.selected.Some? && q.selected.value in locks
  {
    var c := CreateRateLock(Some(uid), locks, from, to, fromAmount, rate, now, reference, Ok(docId));
    assert c.locks == locks + [c.lock.value];
    FindLockAppend(locks, c.lock.value, rateId.value);
  }

  /** Appending a record does not change which lock `find` returns when one
      already matched. */
  lemma {:induction false} FindLockAppend(locks: seq<RateLock>, x: RateLock, id: string)
    requires FindLock(locks, id).Some?
    ensures FindLock(locks + [x], id) == FindLock(locks, id)
  {
    if locks[0].id != Some(id) {
      assert (locks + [x])[1..] == locks[1..] + [x];
      FindLockAppend(locks[1..], x, id);
    }
  }

  /** Opening the page with an id that matches no lock lands on the view tab
      with nothing to show and no "View Lock" button. */
  lemma UnknownQueryIdShowsNothing(rateId: Option<string>, locks: seq<RateLock>)
    requires Truthy(rateId)
    requires forall l :: l in locks ==> l.id != rateId
    ensures var q := SelectFromQuery(InitialPage(rateId), rateId, locks);
            q.tab == ViewTab && !ShowsDetails(q) && !ViewButtonShown(q)
  {
  }

  /** The selection is a snapshot: without a query id, marking the selected
      lock as used updates the provider's list but not the selected record. */
  lemma SelectionIsSnapshot(p: PageState, rateId: Option<string>, locks: seq<RateLock>, l: RateLock, id: string)
    requires l.status == Active && l.id == Some(id)
    requires !Truthy(rateId)
    ensures var m := MarkRateLockAsUsed(locks, id, Done);
            var q := SelectFromQuery(HandleSelectRate(p, l), rateId, m.locks);
            && q.selected == Some(l) && q.selected.value.status == Active
            && forall i :: 0 <= i < |m.locks| && m.locks[i].id == Some(id) ==> m.locks[i].status == Used
  {
  }

  /** With the marked lock's id in the query, the query effect re-selects it
      from the updated list, so the page then shows the used record. */
  lemma QueryReselectsUsedRecord(p: PageState, locks: seq<RateLock>, l: RateLock, id: string)
    requires id != "" && l.id == Some(id)
    requires exists k :: k in locks && k.id == Some(id)
    ensures var m := MarkRateLockAsUsed(locks, id, Done);
            var q := SelectFromQuery(HandleSelectRate(p, l), Some(id), m.locks);
            && q.tab == ViewTab && q.selected.Some?
            && q.selected.value.id == Some(id) && q.selected.value.status == Used
  {
    assert MarkRateLockAsUsed(locks, id, Done).locks == MarkUsedLocally(locks, id);
    MarkedLocksWithId(locks, id);
  }

  /** After the local mark, some record carries the id, and every record
      carrying it is used. */
  lemma MarkedLocksWithId(locks: seq<RateLock>, id: string)
    requires exists k :: k in locks && k.id == Some(id)
    ensures var m := MarkUsedLocally(locks, id);
            && (exists k :: k in m && k.id == Some(id))
            && forall k :: k in m && k.id == Some(id) ==> k.status == Used
  {
    var m := MarkUsedLocally(locks, id);
    var k :| k in locks && k.id == Some(id);
    var i :| 0 <= i < |locks| && locks[i] == k;
    assert m[i].(status := locks[i].status) == locks[i];
    assert m[i] in m;
    forall k' | k' in m && k'.id == Some(id) ensures k'.status == Used {
      var j :| 0 <= j < |m| && m[j] == k';
      assert m[j].(status := locks[j].status) == locks[j];
    }
  }
}

=== FILE: rate_locks.dfy ===
/** The lock side of `FxRateContext`: the `RateLock` record, its creation
    (`createRateLock`) and the local effect of `markRateLockAsUsed`.

    The store is reduced to the outcome of its write: the document id it
    assigns, or a rejection. The signed-in user, the clock and the random
    reference are parameters. */
module RateLocks {
  import opened Wrappers
  import opened FxRates

  /** The stored status. "Expired" is normally derived from the clock and
      is only stored by the transactions page's local rewrite. */
  datatype Status = Active | Expired | Used

  /** A locked rate. Timestamps are milliseconds since the epoch; `id` is
      the store's document id, absent before the record is saved. */
  datatype RateLock = RateLock(
    id: Option<string>,
    userId: string,
    fromCurrency: Code,
    toCurrency: Code,
    fromAmount: real,
    toAmount: real,
    rate: real,
    createdAt: int,
    expiresAt: int,
    status: Status,
    reference: string)

  const MinuteMs: int := 60 * 1000
  const HourMs: int := 60 * MinuteMs

  /** A lock is valid for 24 hours. */
  const LockDurationMs: int := 24 * HourMs

  const NotAuthenticatedError: string := "User must be authenticated to lock rates"
  const CreateLockError: string := "Failed to create rate lock. Please try again."
  const MarkUsedError: string := "Failed to update rate lock status."

  // ---------------------------------------------------------------------------
  // createRateLock
  // ---------------------------------------------------------------------------

  /** What `createRateLock` resolves or rejects with, and the local list it leaves. */
  datatype CreateResult = CreateResult(lock: Outcome<RateLock>, locks: seq<RateLock>)

  /** `createRateLock(from, to, fromAmount, rate)`. `user` is the signed-in
      user's uid, `now` the creation time, `reference` the generated
      reference and `write` the outcome of the store write: the new
      document id, or a rejection. */
  function CreateRateLock(user: Option<string>, locks: seq<RateLock>, from: Code, to: Code,
                          fromAmount: real, rate: real, now: int, reference: string,
                          write: Outcome<string>): (r: CreateResult)
    ensures r.lock.Ok? <==> user.Some? && write.Ok?
    ensures user.None? ==> r.lock == Err(NotAuthenticatedError)
    ensures user.Some? && write.Err? ==> r.lock == Err(CreateLockError)
    ensures r.lock.Err? ==> r.locks == locks
    ensures r.lock.Ok? ==>
              && r.lock.value.id == Some(write.value)
              && r.lock.value.userId == user.value
              && r.lock.value.fromCurrency == from && r.lock.value.toCurrency == to
              && r.lock.value.fromAmount == fromAmount && r.lock.value.rate == rate
              && r.lock.value.toAmount == fromAmount * rate
              && r.lock.value.createdAt == now
              && r.lock.value.expiresAt == now + LockDurationMs
              && r.lock.value.status == Active
              && r.lock.value.reference == reference
    ensures r.lock.Ok? ==> r.locks == locks + [r.lock.value]
  {
    match user
    case None => CreateResult(Err(NotAuthenticatedError), locks)
    case Some(uid) =>
      match write
      case Err(_) => CreateResult(Err(CreateLockError), locks)
      case Ok(docId) =>
        var l := RateLock(Some(docId), uid, from, to, fromAmount, fromAmount * rate, rate,
                          now, now + LockDurationMs, Active, reference);
        CreateResult(Ok(l), locks + [l])
  }

  /** A create grows the list by exactly one record, at the end, and keeps
      every earlier record in place; a failed create changes nothing. */
  lemma CreateAppendsOne(user: Option<string>, locks: seq<RateLock>, from: Code, to: Code,
                         fromAmount: real, rate: real, now: int, reference: string,
                         write: Outcome<string>)
    ensures var r := CreateRateLock(user, locks, from, to, fromAmount, rate, now, reference, write);
            && |r.locks| == |locks| + (if r.lock.Ok? then 1 else 0)
            && r.locks[..|locks|] == locks
            && (r.lock.Ok? ==> r.locks[|locks|] == r.lock.value)
  {
    var r := CreateRateLock(user, locks, from, to, fromAmount, rate, now, reference, write);
    if r.lock.Ok? {
      assert r.locks == locks + [r.lock.value];
    }
  }

  // ---------------------------------------------------------------------------
  // markRateLockAsUsed
  // ---------------------------------------------------------------------------

  /** One step of `prev.map(rate => rate.id === id ? {...rate, status: 'used'} : rate)`. */
  function MarkIfMatches(l: RateLock, id: string): RateLock
  {
    if l.id == Some(id) then l.(status := Used) else l
  }

  /** The local update after a successful store write. */
  function MarkUsedLocally(locks: seq<RateLock>, id: string): (r: seq<RateLock>)
    ensures |r| == |locks|
    ensures forall i :: 0 <= i < |locks| && locks[i].id == Some(id) ==> r[i].status == Used
    ensures forall i :: 0 <= i < |locks| ==>
              r[i].(status := locks[i].status) == locks[i]
    ensures forall i :: 0 <= i < |locks| && locks[i].id != Some(id) ==> r[i] == locks[i]
  {
    if locks == [] then []
    else [MarkIfMatches(locks[0], id)] + MarkUsedLocally(locks[1..], id)
  }

  /** What `markRateLockAsUsed` resolves or rejects with, and the list it leaves. */
  datatype MarkResult = MarkResult(done: Completion, locks: seq<RateLock>)

  /** `markRateLockAsUsed(id)`, with `write` the outcome of the store update. */
  function MarkRateLockAsUsed(locks: seq<RateLock>, id: string, write: Completion): (r: MarkResult)
    ensures r.done.Done? <==> write.Done?
    ensures write.Failed? ==> r.done == Failed(MarkUsedError) && r.locks == locks
    ensures write.Done? ==> |r.locks| == |locks|
    ensures write.Done? ==> forall i :: 0 <= i < |locks| ==>
              r.locks[i].status == (if locks[i].id == Some(id) then Used else locks[i].status)
    ensures write.Done? ==> forall i :: 0 <= i < |locks| ==>
              r.locks[i].(status := locks[i].status) == locks[i]
    ensures write.Done? ==> r.locks == MarkUsedLocally(locks, id)
  {
    match write
    case Failed(_) => MarkResult(Failed(MarkUsedError), locks)
    case Done => MarkResult(Done, MarkUsedLocally(locks, id))
  }

  /** Marking the same id twice leaves the list as marking it once. */
  lemma {:induction false} MarkUsedIdempotent(locks: seq<RateLock>, id: string)
    ensures MarkUsedLocally(MarkUsedLocally(locks, id), id) == MarkUsedLocally(locks, id)
  {
    if locks != [] {
      MarkUsedIdempotent(locks[1..], id);
    }
  }

  /** Marks for two ids commute. */
  lemma {:induction false} MarkUsedCommutes(locks: seq<RateLock>, a: string, b: string)
    ensures MarkUsedLocally(MarkUsedLocally(locks, a), b) == MarkUsedLocally(MarkUsedLocally(locks, b), a)
  {
    if locks != [] {
      MarkUsedCommutes(locks[1..], a, b);
    }
  }

  /** An id no record carries leaves the list unchanged. */
  lemma {:induction false} MarkUsedUnknownId(locks: seq<RateLock>, id: string)
    requires forall l :: l in locks ==> l.id != Some(id)
    ensures MarkUsedLocally(locks, id) == locks
  {
    if locks != [] {
      assert locks[0] in locks;
      assert forall l :: l in locks[1..] ==> l in locks;
      MarkUsedUnknownId(locks[1..], id);
    }
  }

  /** There is no status check: a lock is marked whatever its stored status,
      including one the clock has already expired. */
  lemma MarkUsedIgnoresStatus(l: RateLock, id: string)
    requires l.id == Some(id)
    ensures MarkUsedLocally([l], id) == [l.(status := Used)]
  {
    assert MarkUsedLocally([l], id)[0] == l.(status := Used);
  }

  /** Creating a lock and then marking its store id makes the new record
      used; any earlier record that already carries that id is marked too. */
  lemma CreateThenMark(uid: string, locks: seq<RateLock>, from: Code, to: Code,
                       fromAmount: real, rate: real, now: int, reference: string, docId: string)
    ensures var c := CreateRateLock(Some(uid), locks, from, to, fromAmount, rate, now, reference, Ok(docId));
            var m := MarkRateLockAsUsed(c.locks, docId, Done);
            && |m.locks| == |locks| + 1
            && m.locks[|locks|] == c.lock.value.(status := Used)
            && m.locks == MarkUsedLocally(locks, docId) + [c.lock.value.(status := Used)]
  {
    var c := CreateRateLock(Some(uid), locks, from, to, fromAmount, rate, now, reference, Ok(docId));
    var x := c.lock.value;
    assert c.locks == locks + [x];
    assert MarkRateLockAsUsed(c.locks, docId, Done).locks == MarkUsedLocally(locks + [x], docId);
    MarkUsedAppend(locks, [x], docId);
    MarkedRecord([x], docId, 0);
    assert MarkUsedLocally([x], docId) == [x.(status := Used)];
  }

  /** With a store id no earlier record carries, marking it after the create
      changes exactly the appended record. */
  lemma CreateThenMarkFreshId(uid: string, locks: seq<RateLock>, from: Code, to: Code,
                              fromAmount: real, rate: real, now: int, reference: string, docId: string)
    requires forall l :: l in locks ==> l.id != Some(docId)
    ensures var c := CreateRateLock(Some(uid), locks, from, to, fromAmount, rate, now, reference, Ok(docId));
            MarkRateLockAsUsed(c.locks, docId, Done).locks == locks + [c.lock.value.(status := Used)]
  {
    CreateThenMark(uid, locks, from, to, fromAmount, rate, now, reference, docId);
    MarkUsedUnknownId(locks, docId);
  }

  /** The local mark works record by record, so it distributes over `+`. */
  lemma MarkUsedAppend(a: seq<RateLock>, b: seq<RateLock>, id: string)
    ensures MarkUsedLocally(a + b, id) == MarkUsedLocally(a, id) + MarkUsedLocally(b, id)
  {
    var l, r := MarkUsedLocally(a + b, id), MarkUsedLocally(a, id) + MarkUsedLocally(b, id);
    forall i | 0 <= i < |l| ensures l[i] == r[i] {
      MarkedRecord(a + b, id, i);
      if i < |a| {
        MarkedRecord(a, id, i);
      } else {
        MarkedRecord(b, id, i - |a|);
      }
    }
  }

  /** Each record of the local mark is the input record, marked if its id matches. */
  lemma MarkedRecord(locks: seq<RateLock>, id: string, i: int)
    requires 0 <= i < |locks|
    ensures MarkUsedLocally(locks, id)[i] == MarkIfMatches(locks[i], id)
  {
    var r := MarkUsedLocally(locks, id);
    assert r[i].(status := locks[i].status) == locks[i];
  }
}

=== FILE: register.dfy ===
/** `RegisterPage`: the sign-up form's checks, run in a fixed order, and
    what a submission does with the outcome of `register`. */
module Register {
  import opened Wrappers

  datatype RegisterForm = RegisterForm(
    name: string,
    email: string,
    password: string,
    confirmPassword: string,
    acceptTerms: bool)

  const FillAllFields: string := "Please fill in all fields"
  const PasswordsDiffer: string := "Passwords do not match"
  const PasswordTooShort: string := "Password must be at least 6 characters"
  const AcceptTerms: string := "Please accept the Terms and Conditions to continue"
  const RegisterFailed: string := "Failed to create an account"

  const MinPasswordLength: nat := 6

  /** The four checks, each as the condition that passes it. */
  predicate AllFilled(f: RegisterForm)
  {
    f.name != "" && f.email != "" && f.password != "" && f.confirmPassword != ""
  }

  predicate PasswordsMatch(f: RegisterForm)
  {
    f.password == f.confirmPassword
  }

  predicate LongEnough(f: RegisterForm)
  {
    |f.password| >= MinPasswordLength
  }

  /** One check: whether it passes, and the message shown when it does not. */
  datatype Check = Check(passes: bool, message: string)

  /** The checks in the order `handleSubmit` runs them. */
  function Checks(f: RegisterForm): (cs: seq<Check>)
    ensures |cs| == 4
  {
    [ Check(AllFilled(f), FillAllFields),
      Check(PasswordsMatch(f), PasswordsDiffer),
      Check(LongEnough(f), PasswordTooShort),
      Check(f.acceptTerms, AcceptTerms) ]
  }

  /** The message of the first failing check, if any. */
  function FirstFailure(cs: seq<Check>): (r: Option<string>)
    ensures r.None? <==> forall i :: 0 <= i < |cs| ==> cs[i].passes
  {
    if cs == [] then None
    else if !cs[0].passes then Some(cs[0].message)
    else FirstFailure(cs[1..])
  }

  /** The early returns of `handleSubmit`: the first failing check alone
      sets the message. */
  function Validate(f: RegisterForm): (r: Option<string>)
    ensures r.None? <==> AllFilled(f) && PasswordsMatch(f) && LongEnough(f) && f.acceptTerms
    ensures r == Some(FillAllFields) <==> !AllFilled(f)
    ensures r == Some(PasswordsDiffer) <==> AllFilled(f) && !PasswordsMatch(f)
    ensures r == Some(PasswordTooShort) <==> AllFilled(f) && PasswordsMatch(f) && !LongEnough(f)
    ensures r == Some(AcceptTerms) <==>
              AllFilled(f) && PasswordsMatch(f) && LongEnough(f) && !f.acceptTerms
  {
    MessagesDistinct();
    if !AllFilled(f) then Some(FillAllFields)
    else if f.password != f.confirmPassword then Some(PasswordsDiffer)
    else if |f.password| < MinPasswordLength then Some(PasswordTooShort)
    else if !f.acceptTerms then Some(AcceptTerms)
    else None
  }

  /** The four messages tell the checks apart. */
  lemma MessagesDistinct()
    ensures FillAllFields != PasswordsDiffer && FillAllFields != PasswordTooShort && FillAllFields != AcceptTerms
    ensures PasswordsDiffer != PasswordTooShort && PasswordsDiffer != AcceptTerms
    ensures PasswordTooShort != AcceptTerms
  {
    assert |FillAllFields| == 25 && |PasswordsDiffer| == 22;
    assert |PasswordTooShort| == 38 && |AcceptTerms| == 50;
  }

  /** The early returns agree with taking the first failing check of the
      ordered list. */
  lemma ValidateIsFirstFailure(f: RegisterForm)
    ensures Validate(f) == FirstFailure(Checks(f))
  {
    var c0 := Checks(f);
    var c1, c2, c3 := c0[1..], c0[2..], c0[3..];
    assert c1[1..] == c2 && c2[1..] == c3 && c3[1..] == [];
    assert FirstFailure(c3) == if f.acceptTerms then None else Some(AcceptTerms);
    assert FirstFailure(c2) == if LongEnough(f) then FirstFailure(c3) else Some(PasswordTooShort);
    assert FirstFailure(c1) == if PasswordsMatch(f) then FirstFailure(c2) else Some(PasswordsDiffer);
  }

  /** The arguments handed to `register`. */
  datatype Registration = Registration(email: string, password: string, name: string)

  /** The page after a submission settles: the call made to `register`, if
      any, the error text, the loading flag and whether it went on to the
      dashboard. */
  datatype Submission = Submission(
    registered: Option<Registration>,
    error: string,
    loading: bool,
    navigated: bool)

  /** `handleSubmit`. `loading` is the flag before the submission; `outcome`
      is how `register` settles when it is called, a rejection carrying the
      thrown error's message. */
  function HandleSubmit(f: RegisterForm, loading: bool, outcome: Completion): (s: Submission)
    ensures s.registered.Some? <==> Validate(f).None?
    ensures s.registered.Some? ==> s.registered.value == Registration(f.email, f.password, f.name)
    ensures Validate(f).Some? ==>
              s.error == Validate(f).value && s.loading == loading && !s.navigated
    ensures Validate(f).None? ==> !s.loading && (s.navigated <==> outcome.Done?)
    ensures Validate(f).None? && outcome.Done? ==> s.error == ""
    ensures Validate(f).None? && outcome.Failed? ==>
              s.error == (if outcome.reason != "" then outcome.reason else RegisterFailed)
  {
    match Validate(f)
    case Some(message) => Submission(None, message, loading, false)
    case None =>
      var call := Some(Registration(f.email, f.password, f.name));
      match outcome
      case Done => Submission(call, "", false, true)
      case Failed(reason) =>
        Submission(call, if reason != "" then reason else RegisterFailed, false, false)
  }

  /** Six characters pass the length check and five do not. */
  lemma PasswordLengthBoundary(f: RegisterForm, outcome: Completion)
    requires AllFilled(f) && PasswordsMatch(f) && f.acceptTerms
    ensures |f.password| == 6 ==> HandleSubmit(f, false, outcome).registered.Some?
    ensures |f.password| == 5 ==>
              HandleSubmit(f, false, outcome).registered.None?
              && HandleSubmit(f, false, outcome).error == PasswordTooShort
  {
  }

  /** A blank field is reported before any other problem. */
  lemma BlankFieldFirst(f: RegisterForm, loading: bool, outcome: Completion)
    requires f.name == "" || f.email == "" || f.password == "" || f.confirmPassword == ""
    ensures HandleSubmit(f, loading, outcome).error == FillAllFields
    ensures HandleSubmit(f, loading, outcome).registered.None?
  {
  }

  /** A rejected registration always leaves an error to show. */
  lemma RejectionShowsError(f: RegisterForm, loading: bool, reason: string)
    requires Validate(f).None?
    ensures HandleSubmit(f, loading, Failed(reason)).error != ""
    ensures !HandleSubmit(f, loading, Failed(reason)).loading
  {
  }
}

=== FILE: seqs.dfy ===
/** Sequence helpers standing in for JavaScript's `Array.prototype.filter`
    and for counting occurrences. */
module Seqs {

  /** `a` can be obtained from `b` by deleting elements, keeping the order. */
  ghost predicate IsSubsequence<T>(a: seq<T>, b: seq<T>)
    decreases |b|
  {
    if a == [] then true
    else if b == [] then false
    else (a[0] == b[0] && IsSubsequence(a[1..], b[1..])) || IsSubsequence(a, b[1..])
  }

  /** `s.filter(p)`: the elements satisfying `p`, in their original order. */
  function Filter<T>(s: seq<T>, p: T -> bool): (r: seq<T>)
    ensures |r| <= |s|
    ensures forall x :: x in r ==> x in s && p(x)
    ensures forall x :: x in s && p(x) ==> x in r
  {
    if s == [] then []
    else
      assert forall x :: x in s ==> x == s[0] || x in s[1..];
      if p(s[0]) then [s[0]] + Filter(s[1..], p)
      else Filter(s[1..], p)
  }

  /** Number of elements of `s` satisfying `p` (`s.filter(p).length`). */
  function CountIf<T>(s: seq<T>, p: T -> bool): nat
  {
    |Filter(s, p)|
  }

  /** Number of occurrences of `x` in `s`. */
  function Occ<T(==)>(s: seq<T>, x: T): (n: nat)
    ensures n > 0 <==> x in s
  {
    if s == [] then 0
    else
      assert s == [s[0]] + s[1..];
      (if s[0] == x then 1 else 0) + Occ(s[1..], x)
  }

  /** No element occurs twice. */
  predicate NoDup<T(==)>(s: seq<T>)
  {
    forall i, j :: 0 <= i < j < |s| ==> s[i] != s[j]
  }

  /** Filtering with `p` and with its negation splits the elements of `s`. */
  lemma {:induction false} FilterComplement<T>(s: seq<T>, p: T -> bool)
    ensures multiset(Filter(s, p)) + multiset(Filter(s, x => !p(x))) == multiset(s)
  {
    if s != [] {
      FilterComplement(s[1..], p);
      assert s == [s[0]] + s[1..];
    }
  }

  /** The two halves of a split have lengths adding up to `|s|`. */
  lemma FilterComplementLength<T>(s: seq<T>, p: T -> bool)
    ensures |Filter(s, p)| + |Filter(s, x => !p(x))| == |s|
  {
    FilterComplement(s, p);
    assert |multiset(Filter(s, p))| + |multiset(Filter(s, x => !p(x)))| == |multiset(s)|;
  }

  /** A filter keeps a sub-multiset of its input. */
  lemma FilterSubMultiset<T>(s: seq<T>, p: T -> bool)
    ensures multiset(Filter(s, p)) <= multiset(s)
  {
    FilterComplement(s, p);
  }

  /** A filter keeps the relative order of the elements it keeps. */
  lemma {:induction false} FilterIsSubsequence<T>(s: seq<T>, p: T -> bool)
    ensures IsSubsequence(Filter(s, p), s)
  {
    if s != [] {
      FilterIsSubsequence(s[1..], p);
      var rest := Filter(s[1..], p);
      if p(s[0]) {
        assert ([s[0]] + rest)[1..] == rest;
      } else if rest != [] {
        assert IsSubsequence(rest, s[1..]);
      }
    }
  }

  /** Filters with pointwise-equal tests agree. */
  lemma {:induction false} FilterCongruent<T>(s: seq<T>, p: T -> bool, q: T -> bool)
    requires forall x :: x in s ==> p(x) == q(x)
    ensures Filter(s, p) == Filter(s, q)
  {
    if s != [] {
      assert s[0] in s;
      assert forall x :: x in s[1..] ==> x in s;
      FilterCongruent(s[1..], p, q);
    }
  }

  /** Filtering twice is filtering once by the conjunction of the tests. */
  lemma {:induction false} FilterFilter<T>(s: seq<T>, p: T -> bool, q: T -> bool)
    ensures Filter(Filter(s, p), q) == Filter(s, x => p(x) && q(x))
  {
    if s != [] {
      FilterFilter(s[1..], p, q);
      var rest := Filter(s[1..], p);
      if p(s[0]) {
        assert ([s[0]] + rest)[0] == s[0];
        assert ([s[0]] + rest)[1..] == rest;
      }
    }
  }

  /** A filter whose test holds everywhere keeps the whole sequence. */
  lemma {:induction false} FilterAll<T>(s: seq<T>, p: T -> bool)
    requires forall x :: x in s ==> p(x)
    ensures Filter(s, p) == s
  {
    if s != [] {
      assert s[0] in s;
      assert forall x :: x in s[1..] ==> x in s;
      FilterAll(s[1..], p);
    }
  }

  /** In a sequence without duplicates every member occurs exactly once. */
  lemma {:induction false} NoDupOcc<T>(s: seq<T>, x: T)
    requires NoDup(s)
    ensures Occ(s, x) == (if x in s then 1 else 0)
  {
    if s != [] {
      assert NoDup(s[1..]) by {
        forall i, j | 0 <= i < j < |s[1..]| ensures s[1..][i] != s[1..][j] {
          assert s[1..][i] == s[i + 1] && s[1..][j] == s[j + 1];
        }
      }
      NoDupOcc(s[1..], x);
    }
  }

  /** Filtering distributes over concatenation. */
  lemma {:induction false} FilterAppend<T>(a: seq<T>, b: seq<T>, p: T -> bool)
    ensures Filter(a + b, p) == Filter(a, p) + Filter(b, p)
  {
    if a != [] {
      assert (a + b)[0] == a[0];
      assert (a + b)[1..] == a[1..] + b;
      FilterAppend(a[1..], b, p);
    } else {
      assert a + b == b;
    }
  }
}

=== FILE: transactions.dfy ===
/** `TransactionsPage`: the history table. Time-expired active locks are
    first rewritten to "expired" in a local copy; the copy is then filtered
    by status and by a case-insensitive search, and sorted by the chosen
    column.

    Each `new Date()` of the page is a clock reading. The rewrite effect
    reads `now`; the status filter, the status sort key and the badge read
    `later`, which in the running page is the same or a later instant. */
module Transactions {
  import opened Wrappers
  import opened Seqs
  import opened RateLocks

  // ---------------------------------------------------------------------------
  // The rewrite effect
  // ---------------------------------------------------------------------------

  /** `status === 'active' && expiresAt <= now`. */
  predicate TimeExpired(l: RateLock, now: int)
  {
    l.status == Active && l.expiresAt <= now
  }

  function RewriteOne(l: RateLock, now: int): RateLock
  {
    if TimeExpired(l, now) then l.(status := Expired) else l
  }

  /** `userLockedRates.map(...)`: time-expired active locks become "expired". */
  function RewriteExpired(locks: seq<RateLock>, now: int): (r: seq<RateLock>)
    ensures |r| == |locks|
    ensures forall i :: 0 <= i < |locks| && TimeExpired(locks[i], now) ==> r[i].status == Expired
    ensures forall i :: 0 <= i < |locks| ==> r[i].(status := locks[i].status) == locks[i]
    ensures forall i :: 0 <= i < |locks| && !TimeExpired(locks[i], now) ==> r[i] == locks[i]
  {
    if locks == [] then []
    else [RewriteOne(locks[0], now)] + RewriteExpired(locks[1..], now)
  }

  /** After the rewrite no row is time-expired at the same clock. */
  lemma RewriteLeavesNoneTimeExpired(locks: seq<RateLock>, now: int)
    ensures forall l :: l in RewriteExpired(locks, now) ==> !TimeExpired(l, now)
  {
    var r := RewriteExpired(locks, now);
    forall l | l in r ensures !TimeExpired(l, now) {
      var i :| 0 <= i < |r| && r[i] == l;
    }
  }

  /** Rewriting twice at the same clock is rewriting once. */
  lemma {:induction false} RewriteIdempotent(locks: seq<RateLock>, now: int)
    ensures RewriteExpired(RewriteExpired(locks, now), now) == RewriteExpired(locks, now)
  {
    if locks != [] {
      RewriteIdempotent(locks[1..], now);
    }
  }

  // ---------------------------------------------------------------------------
  // Status filter
  // ---------------------------------------------------------------------------

  datatype StatusFilter = All | OnlyActive | OnlyUsed | OnlyExpired

  /** The filter's test for one row; the "expired" test reads the clock again. */
  predicate StatusMatches(f: StatusFilter, l: RateLock, later: int)
  {
    match f
    case All => true
    case OnlyActive => l.status == Active
    case OnlyUsed => l.status == Used
    case OnlyExpired => TimeExpired(l, later)
  }

  function ApplyStatusFilter(rows: seq<RateLock>, f: StatusFilter, later: int): (r: seq<RateLock>)
    ensures f == All ==> r == rows
    ensures forall l :: l in r <==> l in rows && StatusMatches(f, l, later)
  {
    if f == All then rows else Filter(rows, l => StatusMatches(f, l, later))
  }

  /** With a single clock value the "expired" filter selects nothing: the
      rewrite has already turned every row it would select into "expired". */
  lemma ExpiredFilterSelectsNothing(locks: seq<RateLock>, now: int)
    ensures ApplyStatusFilter(RewriteExpired(locks, now), OnlyExpired, now) == []
  {
    var r := ApplyStatusFilter(RewriteExpired(locks, now), OnlyExpired, now);
    RewriteLeavesNoneTimeExpired(locks, now);
  }

  // ---------------------------------------------------------------------------
  // Search
  // ---------------------------------------------------------------------------

  /** `toLowerCase` on ASCII letters. */
  function LowerChar(c: char): char
  {
    if 'A' <= c <= 'Z' then (c as int + 32) as char else c
  }

  function Lower(s: string): (r: string)
    ensures |r| == |s|
    ensures forall i :: 0 <= i < |s| ==> !('A' <= r[i] <= 'Z')
    ensures forall i :: 0 <= i < |s| ==>
              if 'A' <= s[i] <= 'Z' then r[i] as int == s[i] as int + 32 else r[i] == s[i]
  {
    seq(|s|, i requires 0 <= i < |s| => LowerChar(s[i]))
  }

  /** Lower-casing is idempotent. */
  lemma LowerIdempotent(s: string)
    ensures Lower(Lower(s)) == Lower(s)
  {
    forall i | 0 <= i < |s| ensures Lower(Lower(s))[i] == Lower(s)[i] {
      assert Lower(s)[i] == LowerChar(s[i]);
    }
  }

  /** `needle` is a prefix of `hay`. */
  predicate IsPrefix(needle: string, hay: string)
  {
    |needle| <= |hay| && hay[..|needle|] == needle
  }

  /** `hay.includes(needle)`: `needle` starts at some position of `hay`. */
  predicate Contains(hay: string, needle: string)
    decreases |hay|
  {
    IsPrefix(needle, hay) || (hay != [] && Contains(hay[1..], needle))
  }

  predicate SearchMatches(l: RateLock, term: string)
  {
    var t := Lower(term);
    Contains(Lower(l.fromCurrency), t) || Contains(Lower(l.toCurrency), t) || Contains(Lower(l.reference), t)
  }

  /** `if (searchTerm)`: an empty term skips the search filter. */
  function ApplySearch(rows: seq<RateLock>, term: string): (r: seq<RateLock>)
    ensures term == "" ==> r == rows
    ensures term != "" ==> forall l :: l in r <==> l in rows && SearchMatches(l, term)
  {
    if term == "" then rows else Filter(rows, l => SearchMatches(l, term))
  }

  /** The search ignores the case of the term. */
  lemma SearchIgnoresTermCase(l: RateLock, term: string)
    ensures SearchMatches(l, Lower(term)) == SearchMatches(l, term)
  {
    LowerIdempotent(term);
  }

  /** Every row matches the empty term anyway, so skipping the filter for it
      loses nothing. */
  lemma EmptyTermMatchesAll(l: RateLock)
    ensures SearchMatches(l, "")
  {
    assert IsPrefix(Lower(""), Lower(l.fromCurrency));
  }

  /** A row's own reference, typed in any case, finds it. */
  lemma ReferenceFindsRow(l: RateLock)
    ensures SearchMatches(l, l.reference)
  {
    var h := Lower(l.reference);
    assert IsPrefix(h, h);
  }

  // ---------------------------------------------------------------------------
  // Sorting
  // ---------------------------------------------------------------------------

  datatype SortField = Date | Amount | Rate | StatusColumn
  datatype SortDirection = Asc | Desc

  /** `statusOrder` applied to the status the row shows at `later`. */
  function StatusRank(l: RateLock, later: int): (k: int)
    ensures 0 <= k <= 2
    ensures k == 2 <==> l.status == Expired || TimeExpired(l, later)
    ensures k == 0 <==> l.status == Active && !TimeExpired(l, later)
  {
    if TimeExpired(l, later) then 2
    else match l.status
      case Active => 0
      case Used => 1
      case Expired => 2
  }

  /** The value the comparator subtracts for a column. */
  function SortKey(field: SortField, l: RateLock, later: int): real
  {
    match field
    case Date => l.createdAt as real
    case Amount => l.fromAmount
    case Rate => l.rate
    case StatusColumn => StatusRank(l, later) as real
  }

  /** The key in the direction of the sort: `-comparison` for "desc". */
  function DirectedKey(field: SortField, dir: SortDirection, later: int): RateLock -> real
  {
    l => if dir == Asc then SortKey(field, l, later) else -SortKey(field, l, later)
  }

  predicate SortedBy(s: seq<RateLock>, key: RateLock -> real)
  {
    forall i, j :: 0 <= i < j < |s| ==> key(s[i]) <= key(s[j])
  }

  /** Inserts `x` before the first element whose key is not smaller, so that
      `x` precedes equal keys that come after it in the input. */
  function Insert(x: RateLock, s: seq<RateLock>, key: RateLock -> real): (r: seq<RateLock>)
    ensures |r| == |s| + 1
    ensures multiset(r) == multiset(s) + multiset{x}
  {
    if s == [] then [x]
    else if key(x) <= key(s[0]) then [x] + s
    else
      assert s == [s[0]] + s[1..];
      [s[0]] + Insert(x, s[1..], key)
  }

  /** Inserting into a sorted sequence keeps it sorted. */
  lemma {:induction false} InsertSorted(x: RateLock, s: seq<RateLock>, key: RateLock -> real)
    requires SortedBy(s, key)
    ensures SortedBy(Insert(x, s, key), key)
  {
    if s != [] {
      HeadIsLeast(s, key);
      if key(x) > key(s[0]) {
        InsertSorted(x, s[1..], key);
        InsertKeepsBound(x, s[1..], key, key(s[0]));
        ConsSorted(s[0], Insert(x, s[1..], key), key);
      } else {
        ConsSorted(x, s, key);
      }
    }
  }

  /** The head of a sorted sequence has the least key, and its tail is sorted. */
  lemma HeadIsLeast(s: seq<RateLock>, key: RateLock -> real)
    requires SortedBy(s, key) && s != []
    ensures forall y :: y in s ==> key(s[0]) <= key(y)
    ensures SortedBy(s[1..], key)
  {
  }

  /** A lower bound on the keys survives an insertion that respects it. */
  lemma InsertKeepsBound(x: RateLock, s: seq<RateLock>, key: RateLock -> real, b: real)
    requires b <= key(x)
    requires forall y :: y in s ==> b <= key(y)
    ensures forall y :: y in Insert(x, s, key) ==> b <= key(y)
  {
    var t := Insert(x, s, key);
    forall y | y in t ensures b <= key(y) {
      assert y in multiset(t);
      assert y == x || y in multiset(s);
    }
  }

  /** A head no larger than anything in a sorted tail gives a sorted sequence. */
  lemma ConsSorted(h: RateLock, t: seq<RateLock>, key: RateLock -> real)
    requires SortedBy(t, key)
    requires forall y :: y in t ==> key(h) <= key(y)
    ensures SortedBy([h] + t, key)
  {
    var r := [h] + t;
    forall i, j | 0 <= i < j < |r| ensures key(r[i]) <= key(r[j]) {
      assert r[j] == t[j - 1];
      if i > 0 {
        assert r[i] == t[i - 1];
      } else {
        assert r[j] in t;
      }
    }
  }

  /** The array's `sort`: a stable sort by `key` (insertion sort). */
  function SortBy(s: seq<RateLock>, key: RateLock -> real): (r: seq<RateLock>)
    ensures multiset(r) == multiset(s)
  {
    if s == [] then []
    else
      assert s == [s[0]] + s[1..];
      Insert(s[0], SortBy(s[1..], key), key)
  }

  /** The sort's output is ordered by `key`. */
  lemma {:induction false} SortBySorted(s: seq<RateLock>, key: RateLock -> real)
    ensures SortedBy(SortBy(s, key), key)
  {
    if s != [] {
      SortBySorted(s[1..], key);
      InsertSorted(s[0], SortBy(s[1..], key), key);
    }
  }

  /** Sequences with equal multisets have the same members. */
  lemma SameMembers(a: seq<RateLock>, b: seq<RateLock>)
    requires multiset(a) == multiset(b)
    ensures forall l :: l in a <==> l in b
  {
    forall l ensures l in a <==> l in b {
      assert l in a <==> l in multiset(a);
      assert l in b <==> l in multiset(b);
    }
  }

  // ---------------------------------------------------------------------------
  // filterAndSortTransactions
  // ---------------------------------------------------------------------------

  /** The table's controls. */
  datatype Controls = Controls(term: string, filter: StatusFilter, field: SortField, dir: SortDirection)

  /** The initial controls: no search, all statuses, newest first. */
  const InitialControls: Controls := Controls("", All, Date, Desc)

  predicate Selected(c: Controls, l: RateLock, later: int)
  {
    StatusMatches(c.filter, l, later) && (c.term == "" || SearchMatches(l, c.term))
  }

  /** The row test of the table's controls, as a function value. */
  function SelectedBy(c: Controls, later: int): RateLock -> bool
  {
    l => Selected(c, l, later)
  }

  /** The rows that pass the status filter and then the search: exactly the
      selected rows, in their stored order. */
  function FilteredRows(rows: seq<RateLock>, c: Controls, later: int): (r: seq<RateLock>)
    ensures r == Filter(rows, SelectedBy(c, later))
    ensures IsSubsequence(r, rows)
    ensures multiset(r) <= multiset(rows)
    ensures forall l :: l in r <==> l in rows && Selected(c, l, later)
  {
    FilteredSubMultiset(rows, c, later);
    FilteredIsOneFilter(rows, c, later);
    FilterIsSubsequence(rows, SelectedBy(c, later));
    ApplySearch(ApplyStatusFilter(rows, c.filter, later), c.term)
  }

  /** The status filter followed by the search is one filter by `Selected`. */
  lemma FilteredIsOneFilter(rows: seq<RateLock>, c: Controls, later: int)
    ensures ApplySearch(ApplyStatusFilter(rows, c.filter, later), c.term) == Filter(rows, SelectedBy(c, later))
  {
    var sel := SelectedBy(c, later);
    if c.filter == All {
      assert ApplyStatusFilter(rows, c.filter, later) == rows;
      if c.term == "" {
        FilterAll(rows, sel);
      } else {
        FilterCongruent(rows, l => SearchMatches(l, c.term), sel);
      }
    } else if c.term == "" {
      FilterCongruent(rows, l => StatusMatches(c.filter, l, later), sel);
    } else {
      StatusThenSearch(rows, c, later);
    }
  }

  lemma StatusThenSearch(rows: seq<RateLock>, c: Controls, later: int)
    requires c.filter != All && c.term != ""
    ensures Filter(Filter(rows, l => StatusMatches(c.filter, l, later)), l => SearchMatches(l, c.term))
            == Filter(rows, SelectedBy(c, later))
  {
    var st := (l: RateLock) => StatusMatches(c.filter, l, later);
    var se := (l: RateLock) => SearchMatches(l, c.term);
    FilterFilter(rows, st, se);
    FilterCongruent(rows, x => st(x) && se(x), SelectedBy(c, later));
  }

  lemma FilteredSubMultiset(rows: seq<RateLock>, c: Controls, later: int)
    ensures multiset(ApplySearch(ApplyStatusFilter(rows, c.filter, later), c.term)) <= multiset(rows)
  {
    var s := ApplyStatusFilter(rows, c.filter, later);
    if c.filter != All {
      FilterSubMultiset(rows, l => StatusMatches(c.filter, l, later));
    }
    if c.term != "" {
      FilterSubMultiset(s, l => SearchMatches(l, c.term));
    }
  }

  /** Order by the directed key is order by the column in the chosen direction. */
  lemma DirectedOrder(r: seq<RateLock>, c: Controls, later: int)
    requires SortedBy(r, DirectedKey(c.field, c.dir, later))
    ensures forall i, j :: 0 <= i < j < |r| ==>
              if c.dir == Asc then SortKey(c.field, r[i], later) <= SortKey(c.field, r[j], later)
              else SortKey(c.field, r[i], later) >= SortKey(c.field, r[j], later)
  {
    var key := DirectedKey(c.field, c.dir, later);
    forall i, j | 0 <= i < j < |r|
      ensures if c.dir == Asc then SortKey(c.field, r[i], later) <= SortKey(c.field, r[j], later)
              else SortKey(c.field, r[i], later) >= SortKey(c.field, r[j], later)
    {
      assert key(r[i]) <= key(r[j]);
    }
  }

  /** `filterAndSortTransactions(rates)`. */
  function FilterAndSort(rows: seq<RateLock>, c: Controls, later: int): (r: seq<RateLock>)
    ensures multiset(r) == multiset(FilteredRows(rows, c, later))
    ensures multiset(r) <= multiset(rows)
    ensures forall l :: l in r <==> l in rows && Selected(c, l, later)
    ensures forall i, j :: 0 <= i < j < |r| ==>
              if c.dir == Asc then SortKey(c.field, r[i], later) <= SortKey(c.field, r[j], later)
              else SortKey(c.field, r[i], later) >= SortKey(c.field, r[j], later)
  {
    var filtered := FilteredRows(rows, c, later);
    var key := DirectedKey(c.field, c.dir, later);
    var r := SortBy(filtered, key);
    SortBySorted(filtered, key);
    DirectedOrder(r, c, later);
    SameMembers(r, filtered);
    r
  }

  /** The table's content: the rewrite, then the filters and the sort. */
  function Transactions(locks: seq<RateLock>, c: Controls, now: int, later: int): seq<RateLock>
  {
    FilterAndSort(RewriteExpired(locks, now), c, later)
  }

  /** With the initial controls the table shows every lock, newest first. */
  lemma InitialTableShowsAll(locks: seq<RateLock>, now: int, later: int)
    ensures multiset(Transactions(locks, InitialControls, now, later)) == multiset(RewriteExpired(locks, now))
    ensures var r := Transactions(locks, InitialControls, now, later);
            forall i, j :: 0 <= i < j < |r| ==> r[i].createdAt >= r[j].createdAt
  {
    var rows := RewriteExpired(locks, now);
    var r := Transactions(locks, InitialControls, now, later);
    assert FilteredRows(rows, InitialControls, later) == rows;
    forall i, j | 0 <= i < j < |r| ensures r[i].createdAt >= r[j].createdAt {
      assert SortKey(Date, r[i], later) >= SortKey(Date, r[j], later);
    }
  }

  /** With one clock, choosing the "expired" filter empties the table. */
  lemma ExpiredTabIsEmpty(locks: seq<RateLock>, c: Controls, now: int)
    requires c.filter == OnlyExpired
    ensures Transactions(locks, c, now, now) == []
  {
    var rows := RewriteExpired(locks, now);
    var r := FilterAndSort(rows, c, now);
    RewriteLeavesNoneTimeExpired(locks, now);
    assert forall l :: l in r ==> l in rows && TimeExpired(l, now);
    NoMembersEmpty(r);
  }

  lemma NoMembersEmpty(r: seq<RateLock>)
    requires forall l :: l !in r
    ensures r == []
  {
    HeadIsMember(r);
  }

  lemma HeadIsMember(r: seq<RateLock>)
    ensures |r| > 0 ==> r[0] in r
  {
  }

  // ---------------------------------------------------------------------------
  // handleSort and the badge
  // ---------------------------------------------------------------------------

  /** A click on a column header. */
  function HandleSort(c: Controls, field: SortField): (d: Controls)
    ensures d.term == c.term && d.filter == c.filter && d.field == field
    ensures field == c.field ==> d.dir != c.dir
    ensures field != c.field ==> d.dir == Desc
  {
    if field == c.field then c.(dir := if c.dir == Asc then Desc else Asc)
    else c.(field := field, dir := Desc)
  }

  /** Two clicks on the current column restore the controls. */
  lemma SortClickTwice(c: Controls)
    ensures HandleSort(HandleSort(c, c.field), c.field) == c
  {
  }

  /** A click on another column and one more on it sort that column ascending. */
  lemma NewColumnThenFlip(c: Controls, field: SortField)
    requires field != c.field
    ensures HandleSort(HandleSort(c, field), field).dir == Asc
  {
  }

  /** `getStatusBadge`. */
  function StatusBadge(l: RateLock, later: int): (b: string)
    ensures b == "Expired" <==> TimeExpired(l, later)
    ensures b == "Used" <==> l.status == Used
    ensures b == "Active" <==> l.status != Used && !TimeExpired(l, later)
  {
    if TimeExpired(l, later) then "Expired"
    else if l.status == Used then "Used"
    else "Active"
  }

  /** The rewrite hides expiry from the badge: at the same clock every
      rewritten row, and every row stored as "expired", shows "Active". */
  lemma RewrittenRowsShowActive(locks: seq<RateLock>, now: int, i: int)
    requires 0 <= i < |locks|
    requires TimeExpired(locks[i], now) || locks[i].status == Expired
    ensures StatusBadge(RewriteExpired(locks, now)[i], now) == "Active"
  {
  }

  /** No row of the rewritten list ever shows "Expired" at the rewrite's clock. */
  lemma NoExpiredBadge(locks: seq<RateLock>, now: int)
    ensures forall l :: l in RewriteExpired(locks, now) ==> StatusBadge(l, now) != "Expired"
  {
    RewriteLeavesNoneTimeExpired(locks, now);
  }
}

=== FILE: wrappers.dfy ===
/** Failure-carrying values shared by every module of the model.

    - `Option<T>` stands for a JavaScript value that may be `null`/`undefined`.
    - `Outcome<T>` stands for a promise that either resolves with a value or
      rejects with an error message.
 */
module Wrappers {

  datatype Option<+T> = None | Some(value: T) {

    /** Returns the wrapped value, or `default` when there is none. */
    function GetOr(default: T): T {
      match this
      case Some(v) => v
      case None => default
    }
  }

  datatype Outcome<+T> = Ok(value: T) | Err(message: string)

  /** A store write or remote call that succeeds without a value, or rejects. */
  datatype Completion = Done | Failed(reason: string)
}
